=== FILE: README.md ===
# A Dafny model of the build-fiber-react reconciler

This project models the small React-like engine in `src/myReact/index.js`:
- element construction (`createElement`, `createTextElement`);
- the fiber tree built one unit of work at a time (`performUnitOfWork`, `updateHostComponent`, `updateFunctionComponent`);
- the positional child diff (`reconcileChildren`);
- the property diff (`updateDom`);
- the `useState` hook and its setter;
- the commit phase (`commitRoot`, `commitWork`, `commitDeletion`);
- the time-sliced `workLoop` that drives all of it.

How the model is built:
- **Fibers.** Fibers live in an arena, a `map<FiberId, Fiber>` whose `parent`, `child`, `sibling` and `alternate` links are `Option<FiberId>`. Ids are handed out by a counter, so a parent or alternate is always older than the fiber and a child or sibling younger (`Fibers.Wf`). That ordering is what makes every walk of the engine terminate in the model.
- **The host DOM.** The DOM is not modelled. Each call the engine makes on it becomes a `HostOp` appended to a log: create an element or text node, apply a prop diff, append a child, remove a child.
- **`requestIdleCallback`.** The deadline becomes a budget: how many more times `timeRemaining()` reports at least a millisecond.
- **`Scheduler.Build`.** This parameter selects the code as written (`AsWritten`) or the code with the two defects under "## Findings" corrected (`Corrected`).
- **TypeErrors.** A TypeError the source would throw becomes a `Fault` value. Inside the work loop, a fault stops the runtime for good, because the throw skips the re-registration at index.js:47.

Modules follow the parts of the engine:
- `Elements`: element construction.
- `PropDiff`: `updateDom` as an operation list.
- `Fibers`: the arena and its well-formedness.
- `Traversal`: the choice of the next unit and the pre-order it produces.
- `Hooks`: `useState`, the action queue and the setter's enqueue.
- `Reconcile`: `reconcileChildren`.
- `Commit`: the commit walk.
- `Scheduler`: the module-level variables, `render`, `setState`, `performUnitOfWork` and `workLoop`.
- `Wrappers`: `Option` and `Result`.

## Model

| member | source | states |
|---|---|---|
| Elements.CreateElement | src/myReact/index.js:9-20 | The result has the given type. Its children are as many as given and in the same order: object children are kept and primitives become TEXT_ELEMENTs holding the value. A missing children array gives no children. Every attribute except `children` is looked up unchanged, and distinct attribute keys stay distinct. |
| Elements.CreateTextElement | src/myReact/index.js:69-77 | A TEXT_ELEMENT whose only attribute is `nodeValue`, holding the text, with no children. |
| Elements.Without | src/myReact/index.js:13-17 | Dropping the spread `children` key: the key is no longer found, every other key is found as before, and no pair is invented. |
| Elements.WithoutDistinct | src/myReact/index.js:13-17 | Dropping a key keeps attribute keys distinct. |
| Elements.LookupDistinct | src/myReact/index.js:204-206 | With distinct keys, a pair in the props is what a lookup of its key returns, which is how `prev[key]` reads. |
| PropDiff.EventName | src/myReact/index.js:233-235 | The event name is the key lower-cased (ASCII letters) with its first two characters dropped. |
| PropDiff.ClearGone | src/myReact/index.js:210-215 | The first pass clears exactly the plain keys of prevProps that are gone from nextProps. |
| PropDiff.SetNew | src/myReact/index.js:217-222 | The second pass sets exactly the plain keys of nextProps whose value is new or changed, to their new value. |
| PropDiff.RemoveOld | src/myReact/index.js:225-240 | The third pass removes exactly the handlers of prevProps whose key is gone or changed, under their event name. |
| PropDiff.AddNew | src/myReact/index.js:243-254 | The fourth pass adds exactly the handlers of nextProps whose key is new or changed. |
| PropDiff.UpdateDom | src/myReact/index.js:208-256 | Clears come before sets, sets before handler removals, and removals before additions. Every operation is licensed by a difference between the two props objects. The `children` key never yields an operation. |
| PropDiff.UpdateDomComplete | src/myReact/index.js:208-256 | The converse: every gone plain key is cleared, every new or changed plain value is set, every gone or changed handler is removed and every new or changed handler is added. |
| PropDiff.UpdateDomUnchanged | src/myReact/index.js:204-206 | Diffing props against themselves yields no operation. |
| PropDiff.UpdateDomRealizes | src/myReact/index.js:208-222 | Applied to a node showing prevProps, the plain properties end up as nextProps says. New and changed values are written, removed ones read "", and keys in neither keep their value. |
| PropDiff.PassesOrdered | src/myReact/index.js:208-256 | Four uniform passes concatenated in source order are phase-ordered. |
| Fibers.Chain | src/myReact/index.js:137 | The sibling chain from a fiber lists fibers of the arena, each linked to the next by `sibling`, the last with none. |
| Fibers.OldChildren | src/myReact/index.js:137 | The old children of a work-in-progress fiber are its alternate's child chain: fibers of the arena, in increasing id order. |
| Fibers.AddRoot | src/myReact/index.js:22-35 | Adding a parentless, childless root whose alternate is older keeps the arena well formed. |
| Traversal.Climb | src/myReact/index.js:60-66 | The climb for a sibling through the parents yields, if anything, a fiber of the arena. |
| Traversal.PreOrderThreaded | src/myReact/index.js:58-66 | On a tree laid out in the arena, each fiber's next unit is the following fiber in pre-order. After the last fiber the next unit is where the climb from the tree's root goes. |
| Traversal.ForestThreaded | src/myReact/index.js:58-66 | The subtrees of a node from some index on are walked one after another. The walk ends where the climb from the node goes. |
| Traversal.RootWalk | src/myReact/index.js:40-43 | On a tree already laid out in the arena, from a root with no parent and no sibling, following next units visits each fiber of the tree once, in pre-order, and then there is no next unit. |
| Traversal.WalkThreaded | src/myReact/index.js:40-43 | Following next units along a run that exits to nothing visits exactly that run. |
| Hooks.OldHook | src/myReact/index.js:263-266 | An old hook exists exactly when the fiber has an alternate with a hook at the index, and it is that hook. |
| Hooks.DrainInOrder | src/myReact/index.js:272-275 | Applying the queue with forEach equals composing the actions in queue order: the first queued action is applied first. |
| Hooks.DrainAppend | src/myReact/index.js:272-275 | Draining two batches one after the other is draining them as one batch. |
| Hooks.UseState | src/myReact/index.js:261-293 | The state returned is the old hook's state with its queue applied, or the initial value when there is no old hook. One hook holding that state and an empty queue is pushed, and the hook index grows by one. |
| Hooks.UseStatesResume | src/myReact/index.js:261-293 | In a render's sequence of useState calls, call j resumes from the alternate's hook j. |
| Hooks.UseStatesAligned | src/myReact/index.js:185-191 | The same for a whole component render started at hook index 0. |
| Hooks.UseStates | src/myReact/index.js:185-191 | A render rebuilds the fiber's hooks as one fresh hook per useState call, in call order, and changes nothing else. |
| Hooks.Enqueue | src/myReact/index.js:278 | The setter appends its action to its own hook's queue. Every other hook, every other field of the fiber and every other fiber are left alone. |
| Hooks.EnqueueThenResume | src/myReact/index.js:263-278 | An action queued on the current fiber's hook is applied last when the next render of that fiber resumes the hook. |
| Hooks.CounterTwoClicks | src/myReact/index.js:261-278 | Two increments queued on a hook at 1 resume at 3. |
| Reconcile.Reconcile | src/myReact/index.js:135-183 | reconcileChildren fails exactly when the unguarded loop meets an old chain two or more fibers longer than the element list, and the failure is the null `prevSibling` dereference. |
| Reconcile.ReconcileChildren | src/myReact/index.js:174-178 | The as-written loop dereferences a null `prevSibling` exactly when the old chain is at least two fibers longer than the element list. |
| Reconcile.ReconcileFibers | src/myReact/index.js:140-165 | There is one new fiber per element, in element order, with the element's type and props. Each hangs under the work-in-progress fiber and is linked by `sibling` to the next. An old fiber of the same type at the same index makes it an UPDATE that reuses the old node and has that fiber as alternate; otherwise it is a PLACEMENT with no node and no alternate. |
| Reconcile.ReconcileEdits | src/myReact/index.js:166-178 | The old fibers without a same-type element are marked DELETION and appended to the deletions, in chain order, and only they are. Apart from effect tags, existing fibers change only in the work-in-progress fiber's `child`. |
| Reconcile.UnmatchedExactly | src/myReact/index.js:144-169 | An old fiber is deleted exactly when the element at its index is missing or has another type. |
| Reconcile.ReconcileWf | src/myReact/index.js:135-183 | Reconciliation keeps the arena well formed. |
| Reconcile.ReconcileChildrenGuarded | src/myReact/index.js:174-178 | With the sibling link guarded by the new fiber, reconciliation never fails. |
| Reconcile.GuardedAgrees | src/myReact/index.js:174-178 | Wherever the as-written loop succeeds, the guarded one gives the same result. |
| Reconcile.CrashOnShrink | src/myReact/index.js:174-180 | A parent with two old children re-rendered with none makes the as-written loop fail with the null sibling. The guarded loop deletes both old children, in order. |
| Commit.Ancestors | src/myReact/index.js:109-112 | The fibers the climb passes: the start, then each one's parent, ending at a fiber with no parent. |
| Commit.Descent | src/myReact/index.js:128-132 | The fibers the descent passes: the start, then each one's first child, ending at a fiber with no child. |
| Commit.HostParent | src/myReact/index.js:109-113 | The climb yields the node of some fiber at or above the start, and the start's own node when it has one. Its only failure is the TypeError for running out of parents. |
| Commit.HostParentNearest | src/myReact/index.js:109-113 | The climb yields the node of the first fiber on the way up that holds one. It throws exactly when no fiber on the way up holds a node. |
| Commit.CommitDeletion | src/myReact/index.js:127-133 | One node is removed from the given parent, held by a fiber at or below the deleted one, and the fiber's own node when it has one. The TypeError removes nothing. |
| Commit.CommitDeletionFirst | src/myReact/index.js:127-133 | The node removed is that of the first fiber down the `child` links that holds one. The descent throws exactly when no fiber on the way down holds a node. |
| Commit.EffectTouches | src/myReact/index.js:115-121 | A PLACEMENT with a node appends exactly that node under the host parent. An UPDATE with a node and an alternate diffs exactly that node from the alternate's props. A DELETION removes from the host parent the first node down the fiber's `child` links. No effect creates a node, and only these three issue an operation. The missing alternate of an UPDATE throws, and so does a DELETION with no node below. No other fault can occur. |
| Commit.ReconciledUpdateSafe | src/myReact/index.js:117-118 | An UPDATE fiber made by reconcileChildren has an alternate, so its effect never throws for want of one. |
| Commit.FiberEffect | src/myReact/index.js:109-121 | A fiber's effect is issued under the node of the nearest ancestor holding one. It throws exactly when no ancestor holds a node, and then it issues nothing. |
| Commit.CommitWorkInOrder | src/myReact/index.js:106-125 | commitWork (`Commit.CommitWork`) issues, in order, the effects of the fibers it visits: the fiber, then everything below its child, then everything from its sibling on. It stops at the first effect that throws, with that fault. |
| Commit.CommitRoot | src/myReact/index.js:99-104 | As written, the deletion pass comes first and a fault in it ends the commit. Otherwise the new tree's effects follow, in the order commitWork visits its fibers, and the commit's fault is theirs. |
| Commit.CommitRootFixed | src/myReact/index.js:99-104 | The same with the corrected deletion pass: a fault there ends the commit, and otherwise its removals are followed by the new tree's effects, whose fault is the commit's. |
| Commit.CommitFollowsRender | src/myReact/index.js:101 | On a tree already laid out in the arena, the commit performs the effects of the fibers below its root in pre-order, the order following next units visits them. |
| Commit.VisitForest | src/myReact/index.js:123-124 | The commit walk of a laid-out tree visits its fibers in pre-order. |
| Commit.DeleteAll | src/myReact/index.js:100 | With each deleted fiber committed on its own, one node per deleted fiber is removed, in order, and it is that fiber's own node when it has one. |
| Commit.CommitRootFixedShape | src/myReact/index.js:99-104 | With the deletion pass corrected, the commit is one removal per deleted fiber, in order, followed by the new tree's effects in render order. |
| Commit.CommitShapeAfter | src/myReact/index.js:99-104 | Appended to a log, the corrected commit keeps the log as it was and adds one removal per deleted fiber, of its own node when it has one, and then the new tree's effects in visiting order. |
| Commit.AdjacentDeletions | src/myReact/index.js:100 | As written, two adjacent deleted leaves make the deletion pass remove the second node twice; the corrected pass removes it once. |
| Commit.RemovesTwice | src/myReact/index.js:100 | `<div/><span/>` re-rendered as `<p/>`: the span's node is removed twice as written and once corrected. |
| Scheduler.Initial | src/myReact/index.js:1-4 | The runtime starts with no fiber, no unit of work, no roots and an empty log, with the page's own nodes below the node counter, and satisfies its invariant. |
| Scheduler.Render | src/myReact/index.js:22-35 | render makes a new root fiber for the container, a node that already exists. Its alternate is the current root and its only child element is the one given. It becomes both the work in progress and the next unit, deletions are emptied, and every other fiber, the current root and the log are kept. |
| Scheduler.SetState | src/myReact/index.js:277-289 | The action is always queued on its hook, and nothing else of the fiber, no other fiber, the current root and the log change. With a current root, a new root copying that root's props and node, with it as alternate, becomes the work in progress and the next unit, and deletions are emptied. Before the first commit, reading the current root's props is the TypeError, and the work in progress, the next unit and the deletions stay as they were. |
| Scheduler.CreateDomSetsAll | src/myReact/index.js:90-97 | createDom makes a text node exactly for TEXT_ELEMENT, and an element node of the fiber's type otherwise. The blank node then gets exactly the plain properties of the props, with their values, and a listener for every event key. Nothing is cleared or removed. |
| Scheduler.UpdateFunctionComponent | src/myReact/index.js:185-191 | The hooks are rebuilt with states resumed from the alternate, and the only child element is the one the component returns. |
| Scheduler.UpdateHostComponent | src/myReact/index.js:193-198 | A fiber without a node gets one from createDom, and one with a node keeps it. The children to reconcile are its props' children. |
| Scheduler.Prepare | src/myReact/index.js:51-56 | A unit's own work keeps the arena well formed and issues only off-screen host operations. Every node a fiber holds was handed out by the node counter. |
| Scheduler.ReconcileNodes | src/myReact/index.js:147-165 | reconcileChildren hands out no node: a new fiber holds the node of the old fiber it updates, or none. |
| Scheduler.PerformUnitOfWork | src/myReact/index.js:50-67 | A unit of work keeps the invariant, leaves the roots alone and only adds off-screen host operations: those of the fiber's own work. When reconcileChildren succeeds, the runtime holds the reconciled arena, id counter and deletions, and the next unit is the one the traversal picks from the fiber. Otherwise the runtime stops with the fault, which can only be the null sibling, and only as written. |
| Scheduler.ReconcileDescends | src/myReact/index.js:174-176 | With child elements, reconcileChildren makes the first new fiber the work-in-progress fiber's child. It hangs under that fiber with the first element's type and props, so it is the next unit the traversal picks. |
| Scheduler.UnitDescends | src/myReact/index.js:50-58 | When the fiber has child elements, the next unit is its first new child: hung under the fiber, with the first element's type and props. |
| Scheduler.Loop | src/myReact/index.js:40-43 | With no unit left, nothing happens. Otherwise the first unit runs regardless of the deadline, and with the deadline already reached it is the only one; with `Scheduler.LoopSplit` this fixes the result for every budget. Rendering keeps the roots and only adds off-screen operations, so a half-rendered tree is never shown. With the corrected reconciler it never throws. |
| Scheduler.LoopSplit | src/myReact/index.js:38-43 | Two slices of rendering do the same work as one longer slice. |
| Scheduler.CommitRootStep | src/myReact/index.js:99-104 | commitRoot appends the commit's operations to the log, as written or corrected, and the corrected ones have the shape of Commit.CommitShapeAfter. Without a fault the work in progress becomes the current root. A fault stops the runtime with both roots unchanged. The fiber id and node counters are not touched. |
| Scheduler.WorkLoop | src/myReact/index.js:38-48 | While units are left, neither root changes. Once no unit is left, the work in progress is committed: the call ends with the commit step applied to the rendered state, and it becomes the current root unless the commit throws. Whenever no commit happens, the result is exactly that of the rendering loop. A render that throws stops the runtime, keeps the current root and issues only off-screen operations. The current root changes only through a commit. |
| Scheduler.WorkLoopSplit | src/myReact/index.js:38-48 | Two calls of the work loop, commit included, do what one call with a longer deadline does. |

## Left out

- The DOM itself is not modelled. The model records the calls made on it as `HostOp`s, and node handles are numbers from a counter. What a browser does on a second `removeChild` of the same node is not modelled; the log shows that it happens.
- `requestIdleCallback` and `deadline.timeRemaining()` become the budget parameter of `Scheduler.Loop` and `Scheduler.WorkLoop`. The re-registration at index.js:47 is each later call of `WorkLoop`, made by whoever drives the model.
- The `console.log` at index.js:262 is left out: it only prints.
- Prop values are a datatype compared by value (`Str`, `Num`, `Bool`, `Fn(id)`). A function value stands for a handler and is compared by its id, in place of JS identity. `null` and `undefined` values are left out.
- `key in next` in `isGone` is modelled as the key having an entry in nextProps.
- A function component is a list of `useState` initial values plus a function from the states and the props to one element. The model therefore does not cover components that call `useState` conditionally or a varying number of times.
- `fiber.hooks` on a host fiber is `undefined` in the source and `[]` in the model. The hook lookup at index.js:263-266 treats both as "no old hook".
- The fiber that `createFiber` returns has no `child` or `sibling` field. The model writes those as `None`, which is how the source later reads them.
- Children are elements or primitive values. Booleans, numbers and strings become TEXT_ELEMENTs as in the source. A `null` child is left out: `typeof null` is "object", so the source keeps it as an element and fails later on reading its `type`. Nested arrays of children are left out too.
- Scheduler.PerformUnitOfWork: when reconcileChildren throws part-way, the model keeps the arena as it was before the loop. The source keeps the links it had already written, but nothing runs after the throw, so nothing reads them.
- Hooks.UseState: a queued `Action` is a total function `Value -> Value`. setState (index.js:277-278) queues any value. A non-function or throwing action throws at index.js:274 during the next render, inside performUnitOfWork, and that stops the work loop for good. The model has no such fault.
- Scheduler.UpdateFunctionComponent: a component's `view` is total. The call `fiber.type(fiber.props)` at index.js:189 can throw, with the same effect as above. The model has no such fault.
- useState is only called while a function component renders. Called elsewhere, the source reads a null `wipFiber` at index.js:262-266 before any component has rendered (a TypeError). Once one has rendered, it pushes a hook onto that fiber's hooks (index.js:290). Neither case is modelled.
- Scheduler.SetState: the TypeError before the first commit goes to the caller of the setter, not to the work loop, so the model returns it next to the runtime.
- Commit.DeleteAll: in the fault case it only bounds the number of removals issued, and does not say which deleted fiber faulted.
- Commit.CommitRoot: the operations of the as-written deletion pass are stated only as `CommitAll`, the deleted fibers' commitWork walks in turn. Their order depends on the old tree's shape, because the walk goes on into each deleted fiber's children and siblings.
- Traversal.RootWalk: proved for a tree already laid out in the arena. The work loop creates each fiber's children as it goes, and no lemma ties `Scheduler.Run` to the pre-order of the tree it builds.
- Commit.CommitFollowsRender: proved for a tree already laid out in the arena, for the same reason.
- PropDiff.EventName: folds only ASCII letters. `toLowerCase` folds all of Unicode, for example É to é.
- PropDiff.UpdateDom: the order within one pass is not stated. The model walks the attributes in insertion order, while `Object.keys` lists integer-like keys first.
- Commit.HostParent: its own contract says only that the node comes from some fiber at or above the start. Which fiber it is, the first one holding a node, is stated by `Commit.HostParentNearest`.
- Commit.CommitDeletion: its own contract says only that the node comes from some fiber at or below the deleted one. Which fiber it is, the first one holding a node, is stated by `Commit.CommitDeletionFirst`.
- The page's own nodes, the containers among them, are the `pageNodes` nodes below the node counter's start (`Scheduler.Initial`). `render` is given one of them, or a node the engine has made.
- `dist/main.65f60760.js` is a bundle holding a transpiled copy of the same code plus the bundler's module loader and hot-reload client, and is not part of this model. The demo `src/main.jsx` is not part of this model either; its counter is the scenario of `Hooks.CounterTwoClicks`.

## Findings

| source | as written | input that shows it | evidently intended | confidence | as-written member | corrected member |
|---|---|---|---|---|---|---|
| src/myReact/index.js:174-180 | After the elements run out, `newFiber` is null, so `prevSibling` becomes null. At the next index, line 177 writes `prevSibling.sibling` and throws. | A parent with two children re-rendered with none: the loop throws at index 1. | Link a sibling only when there is a new fiber to link, so that the extra old fibers are only deleted. | not executed | Reconcile.CrashOnShrink, Reconcile.ReconcileChildren | Reconcile.ReconcileChildrenGuarded, Reconcile.GuardedAgrees |
| src/myReact/index.js:100, 123-124 | The deletion pass runs `commitWork` on each deleted fiber. `commitWork` goes on into the fiber's old child and sibling, so a deleted fiber whose sibling is also deleted has the sibling's node removed twice. | `<div/><span/>` re-rendered as `<p/>`: the span's node is removed twice. | Remove each deleted fiber's node once, with `commitDeletion` under its host parent. | not executed | Commit.RemovesTwice, Commit.AdjacentDeletions | Commit.DeleteAll, Commit.CommitRootFixedShape |

=== FILE: commit.dfy ===
/** The commit phase (index.js:99-133): the effects recorded on the fibers are turned
    into a log of host (DOM) operations. The host tree itself is not modelled; the log
    says what the engine asks of it, in order. */
module Commit {
  import opened Wrappers
  import opened Elements
  import opened PropDiff
  import opened Fibers
  import Traversal
  import Reconcile

  /** One call into the host. */
  datatype HostOp =
    | CreateNode(node: NodeId, tag: string)     // document.createElement(tag)
    | CreateText(node: NodeId)                  // document.createTextNode("")
    | SetProps(node: NodeId, ops: seq<PropOp>)  // updateDom(node, prev, next)
    | Append(parent: NodeId, node: NodeId)      // parent.appendChild(node)
    | Remove(parent: NodeId, node: NodeId)      // parent.removeChild(node)

  /** The operations issued, and the TypeError that stopped the phase, if any. The
      operations issued before a fault stay issued. */
  datatype Log = Log(ops: seq<HostOp>, fault: Option<Fault>)

  const Quiet := Log([], None)

  /** `b` runs only when `a` did not throw. */
  function Then(a: Log, b: Log): (r: Log)
    ensures a.fault.Some? ==> r == a
    ensures a.fault.None? ==> r.ops == a.ops + b.ops && r.fault == b.fault
  {
    if a.fault.Some? then a else Log(a.ops + b.ops, b.fault)
  }

  lemma ThenAssoc(a: Log, b: Log, c: Log)
    ensures Then(Then(a, b), c) == Then(a, Then(b, c))
  {
    if a.fault.None? && b.fault.None? {
      assert (a.ops + b.ops) + c.ops == a.ops + (b.ops + c.ops);
    }
  }

  lemma ThenQuiet(a: Log)
    ensures Then(Quiet, a) == a && Then(a, Quiet) == a
  {
    assert [] + a.ops == a.ops && a.ops + [] == a.ops;
  }

  /** The rank that makes walks down `child` and across `sibling` terminate. */
  function Rank(bound: FiberId, f: Option<FiberId>): nat {
    if f.Some? && f.value < bound then bound - f.value else 0
  }

  /** `start` and the fibers above it, nearest first: what a climb up the `parent`
      links passes. */
  function Ancestors(arena: Arena, start: Option<FiberId>): (s: seq<FiberId>)
    requires Linked(arena) && (start.Some? ==> start.value in arena)
    ensures start.None? <==> s == []
    ensures forall i | 0 <= i < |s| :: s[i] in arena
    ensures s != [] ==> s[0] == start.value && arena[s[|s| - 1]].parent.None?
    ensures forall i | 0 <= i < |s| - 1 :: arena[s[i]].parent == Some(s[i + 1])
    decreases if start.Some? then start.value + 1 else 0
  {
    match start
    case None => []
    case Some(f) =>
      assert LinkedAt(arena, f);
      [f] + Ancestors(arena, arena[f].parent)
  }

  /** `start` and its first child, that child's first child, and so on: what a descent
      down the `child` links passes. */
  function Descent(arena: Arena, bound: FiberId, start: Option<FiberId>): (s: seq<FiberId>)
    requires Wf(arena, bound) && (start.Some? ==> start.value in arena)
    ensures start.None? <==> s == []
    ensures forall i | 0 <= i < |s| :: s[i] in arena
    ensures s != [] ==> s[0] == start.value && arena[s[|s| - 1]].child.None?
    ensures forall i | 0 <= i < |s| - 1 :: arena[s[i]].child == Some(s[i + 1])
    decreases Rank(bound, start)
  {
    match start
    case None => []
    case Some(f) =>
      assert LinkedAt(arena, f);
      [f] + Descent(arena, bound, arena[f].child)
  }

  /** Fiber i of the walk `s` holds a host node. */
  predicate Holds(arena: Arena, s: seq<FiberId>, i: int) {
    0 <= i < |s| && s[i] in arena && arena[s[i]].dom.Some?
  }

  /** Fiber i of `s` is the first one holding a host node. */
  predicate FirstHolder(arena: Arena, s: seq<FiberId>, i: int) {
    Holds(arena, s, i) && forall j | 0 <= j < i :: !Holds(arena, s, j)
  }

  /** No fiber of `s` holds a host node. */
  predicate NoneHeld(arena: Arena, s: seq<FiberId>) {
    forall i | 0 <= i < |s| :: !Holds(arena, s, i)
  }

  /** Putting a fiber without a node in front of a walk moves its first holder one
      place on, and a walk without holders stays without one. */
  lemma HolderCons(arena: Arena, f: FiberId, s: seq<FiberId>)
    requires f in arena && arena[f].dom.None?
    ensures NoneHeld(arena, [f] + s) <==> NoneHeld(arena, s)
    ensures !FirstHolder(arena, [f] + s, 0)
    ensures forall i | 0 <= i :: FirstHolder(arena, [f] + s, i + 1) <==> FirstHolder(arena, s, i)
  {
    var t := [f] + s;
    assert forall i | 0 <= i < |s| :: t[i + 1] == s[i];
    assert forall i | 0 <= i :: Holds(arena, t, i + 1) <==> Holds(arena, s, i);
    assert !Holds(arena, t, 0);
    forall i | 0 <= i
      ensures FirstHolder(arena, t, i + 1) <==> FirstHolder(arena, s, i)
    {
      if FirstHolder(arena, s, i) {
        forall j | 0 <= j < i + 1
          ensures !Holds(arena, t, j)
        {
          if j > 0 {
            assert !Holds(arena, s, j - 1);
          }
        }
      }
      if FirstHolder(arena, t, i + 1) {
        forall j | 0 <= j < i
          ensures !Holds(arena, s, j)
        {
          assert !Holds(arena, t, j + 1);
        }
      }
    }
    if NoneHeld(arena, s) {
      forall i | 0 <= i < |t|
        ensures !Holds(arena, t, i)
      {
        if i > 0 {
          assert !Holds(arena, s, i - 1);
        }
      }
    }
  }

  /** The climb at index.js:109-112: from `start` up through the parents to the first
      fiber holding a host node. Reading `.dom` of null throws. */
  function HostParent(arena: Arena, start: Option<FiberId>): (r: Result<NodeId, Fault>)
    requires Linked(arena) && (start.Some? ==> start.value in arena)
    ensures r.Failure? ==> r.error == NoHostParent
    ensures r.Success? ==> start.Some? && exists a :: a in arena && a <= start.value && arena[a].dom == Some(r.value)
    ensures start.Some? && arena[start.value].dom.Some? ==> r == Success(arena[start.value].dom.value)
    decreases if start.Some? then start.value + 1 else 0
  {
    match start
    case None => Failure(NoHostParent)
    case Some(f) =>
      if arena[f].dom.Some? then Success(arena[f].dom.value)
      else
        assert LinkedAt(arena, f);
        HostParent(arena, arena[f].parent)
  }

  /** The climb finds the node of the nearest fiber, from `start` up, that holds one,
      and throws exactly when no fiber on the way up holds a node. */
  lemma {:induction false} HostParentNearest(arena: Arena, start: Option<FiberId>)
    requires Linked(arena) && (start.Some? ==> start.value in arena)
    ensures var up := Ancestors(arena, start);
            && (HostParent(arena, start).Failure? <==> NoneHeld(arena, up))
            && (HostParent(arena, start).Success? ==> exists i :: FirstHolder(arena, up, i))
            && (forall i | FirstHolder(arena, up, i) :: HostParent(arena, start) == Success(arena[up[i]].dom.value))
    decreases if start.Some? then start.value + 1 else 0
  {
    if start.Some? {
      var f := start.value;
      var up := Ancestors(arena, start);
      if arena[f].dom.Some? {
        assert FirstHolder(arena, up, 0) && Holds(arena, up, 0);
        assert forall i | FirstHolder(arena, up, i) :: i == 0;
      } else {
        assert LinkedAt(arena, f);
        HostParentNearest(arena, arena[f].parent);
        HolderCons(arena, f, Ancestors(arena, arena[f].parent));
        forall i | FirstHolder(arena, up, i)
          ensures i > 0 && FirstHolder(arena, Ancestors(arena, arena[f].parent), i - 1)
        {
        }
      }
    }
  }

  /** commitDeletion: the first host node down the `child` links of the deleted fiber
      is removed from `domParent`; descending to null throws. */
  function CommitDeletion(arena: Arena, bound: FiberId, fiber: Option<FiberId>, domParent: NodeId): (r: Log)
    requires Wf(arena, bound) && (fiber.Some? ==> fiber.value in arena)
    ensures r.fault.Some? <==> r.ops == []
    ensures r.fault.Some? ==> r.fault == Some(NoHostChild)
    ensures r.fault.None? ==> |r.ops| == 1 && r.ops[0].Remove? && r.ops[0].parent == domParent
    ensures r.fault.None? ==> fiber.Some? && exists d :: d in arena && d >= fiber.value && arena[d].dom == Some(r.ops[0].node)
    ensures fiber.Some? && arena[fiber.value].dom.Some? ==> r == Log([Remove(domParent, arena[fiber.value].dom.value)], None)
    decreases Rank(bound, fiber)
  {
    match fiber
    case None => Log([], Some(NoHostChild))
    case Some(f) =>
      if arena[f].dom.Some? then Log([Remove(domParent, arena[f].dom.value)], None)
      else
        assert LinkedAt(arena, f);
        CommitDeletion(arena, bound, arena[f].child, domParent)
  }

  /** commitDeletion removes the node of the first fiber down the `child` links that
      holds one, and throws exactly when no fiber on the way down holds a node. */
  lemma {:induction false} CommitDeletionFirst(arena: Arena, bound: FiberId, fiber: Option<FiberId>, domParent: NodeId)
    requires Wf(arena, bound) && (fiber.Some? ==> fiber.value in arena)
    ensures var down := Descent(arena, bound, fiber);
            var r := CommitDeletion(arena, bound, fiber, domParent);
            && (r.fault.Some? <==> NoneHeld(arena, down))
            && (r.fault.None? ==> exists i :: FirstHolder(arena, down, i))
            && (forall i | FirstHolder(arena, down, i) :: r == Log([Remove(domParent, arena[down[i]].dom.value)], None))
    decreases Rank(bound, fiber)
  {
    if fiber.Some? {
      var f := fiber.value;
      var down := Descent(arena, bound, fiber);
      if arena[f].dom.Some? {
        assert FirstHolder(arena, down, 0) && Holds(arena, down, 0);
        assert forall i | FirstHolder(arena, down, i) :: i == 0;
      } else {
        assert LinkedAt(arena, f);
        CommitDeletionFirst(arena, bound, arena[f].child, domParent);
        HolderCons(arena, f, Descent(arena, bound, arena[f].child));
        forall i | FirstHolder(arena, down, i)
          ensures i > 0 && FirstHolder(arena, Descent(arena, bound, arena[f].child), i - 1)
        {
        }
      }
    }
  }

  /** What commitWork does for one fiber before visiting its child and sibling
      (index.js:115-121), given the host parent found for it. */
  function Effect(arena: Arena, bound: FiberId, f: FiberId, domParent: NodeId): (r: Log)
    requires Wf(arena, bound) && f in arena
    ensures |r.ops| <= 1 && (r.fault.Some? ==> r.ops == [])
  {
    var fiber := arena[f];
    if fiber.effectTag == Placement && fiber.dom.Some? then Log([Append(domParent, fiber.dom.value)], None)
    else if fiber.effectTag == Update && fiber.dom.Some? then
      match fiber.alternate
      case None => Log([], Some(NoAlternate))
      case Some(a) =>
        assert LinkedAt(arena, f);
        Log([SetProps(fiber.dom.value, UpdateDom(arena[a].props.attrs, fiber.props.attrs))], None)
    else if fiber.effectTag == Deletion then CommitDeletion(arena, bound, Some(f), domParent)
    else Quiet
  }

  /** What a fiber's effect touches. A PLACEMENT appends the fiber's own node under
      `domParent`; an UPDATE diffs the fiber's own node from the alternate's props; a
      DELETION removes from `domParent` the first node down the fiber's `child` links.
      Nothing else issues an operation, and no effect creates a node. It throws only
      for an UPDATE without an alternate and a DELETION with no node below. */
  lemma EffectTouches(arena: Arena, bound: FiberId, f: FiberId, domParent: NodeId)
    requires Wf(arena, bound) && f in arena
    ensures LinkedAt(arena, f)
    ensures Effect(arena, bound, f, domParent).fault.Some? ==>
              Effect(arena, bound, f, domParent).fault in {Some(NoAlternate), Some(NoHostChild)}
    ensures arena[f].effectTag == Placement && arena[f].dom.Some? ==>
              Effect(arena, bound, f, domParent) == Log([Append(domParent, arena[f].dom.value)], None)
    ensures arena[f].effectTag == Update && arena[f].dom.Some? && arena[f].alternate.Some? ==>
              Effect(arena, bound, f, domParent)
              == Log([SetProps(arena[f].dom.value, UpdateDom(arena[arena[f].alternate.value].props.attrs, arena[f].props.attrs))], None)
    ensures Effect(arena, bound, f, domParent).fault == Some(NoAlternate) <==>
              arena[f].effectTag == Update && arena[f].dom.Some? && arena[f].alternate.None?
    ensures Effect(arena, bound, f, domParent).fault == Some(NoHostChild) <==>
              arena[f].effectTag == Deletion && NoneHeld(arena, Descent(arena, bound, Some(f)))
    ensures Effect(arena, bound, f, domParent).fault.None? && Effect(arena, bound, f, domParent).ops == [] <==>
              arena[f].effectTag == NoEffect || (arena[f].effectTag in {Placement, Update} && arena[f].dom.None?)
    ensures forall op | op in Effect(arena, bound, f, domParent).ops :: !op.CreateNode? && !op.CreateText?
    ensures forall op | op in Effect(arena, bound, f, domParent).ops && op.Append? ::
              arena[f].effectTag == Placement && op.parent == domParent && arena[f].dom == Some(op.node)
    ensures forall op | op in Effect(arena, bound, f, domParent).ops && op.SetProps? ::
              && arena[f].effectTag == Update && arena[f].dom == Some(op.node) && arena[f].alternate.Some?
              && op.ops == UpdateDom(arena[arena[f].alternate.value].props.attrs, arena[f].props.attrs)
    ensures forall op | op in Effect(arena, bound, f, domParent).ops && op.Remove? ::
              && arena[f].effectTag == Deletion && op.parent == domParent
              && forall i | FirstHolder(arena, Descent(arena, bound, Some(f)), i) ::
                   arena[Descent(arena, bound, Some(f))[i]].dom == Some(op.node)
  {
    assert LinkedAt(arena, f);
    var fiber := arena[f];
    var r := Effect(arena, bound, f, domParent);
    if fiber.effectTag == Deletion {
      CommitDeletionFirst(arena, bound, Some(f), domParent);
      assert r.fault.Some? ==> r.fault == Some(NoHostChild);
    } else {
      assert r.fault != Some(NoHostChild);
      assert forall op | op in r.ops :: !op.Remove?;
    }
  }

  /** An UPDATE fiber made by reconcileChildren always has an alternate, so its own
      effect never throws for want of one. */
  lemma ReconciledUpdateSafe(arena: Arena, bound: FiberId, wip: FiberId, elements: seq<Element>,
                             deletions: seq<FiberId>, guarded: bool, id: FiberId, domParent: NodeId)
    requires Wf(arena, bound) && wip in arena
    requires Reconcile.Reconcile(arena, bound, wip, elements, deletions, guarded).Success?
    requires bound <= id < bound + |elements|
    ensures var out := Reconcile.Reconcile(arena, bound, wip, elements, deletions, guarded).value;
            && Wf(out.arena, out.next) && id in out.arena
            && Effect(out.arena, out.next, id, domParent).fault != Some(NoAlternate)
  {
    var out := Reconcile.Reconcile(arena, bound, wip, elements, deletions, guarded).value;
    Reconcile.ReconcileWf(arena, bound, wip, elements, deletions, guarded);
    Reconcile.ReconcileFibers(arena, bound, wip, elements, deletions, guarded);
    EffectTouches(out.arena, out.next, id, domParent);
  }

  /** The host parent lookup followed by the fiber's own effect: the effect is issued
      under the node of the nearest ancestor holding one, and reaching the top without
      finding one throws. */
  function FiberEffect(arena: Arena, bound: FiberId, f: FiberId): (r: Log)
    requires Wf(arena, bound) && f in arena
    ensures LinkedAt(arena, f)
    ensures r.fault == Some(NoHostParent) <==> NoneHeld(arena, Ancestors(arena, arena[f].parent))
    ensures r.fault == Some(NoHostParent) ==> r.ops == []
    ensures forall i | FirstHolder(arena, Ancestors(arena, arena[f].parent), i) ::
              r == Effect(arena, bound, f, arena[Ancestors(arena, arena[f].parent)[i]].dom.value)
  {
    assert LinkedAt(arena, f);
    HostParentNearest(arena, arena[f].parent);
    match HostParent(arena, arena[f].parent)
    case Failure(e) => Log([], Some(e))
    case Success(domParent) => Effect(arena, bound, f, domParent)
  }

  /** commitWork: the fiber, then everything below its child, then everything from its
      sibling on. */
  function CommitWork(arena: Arena, bound: FiberId, fiber: Option<FiberId>): (r: Log)
    requires Wf(arena, bound) && (fiber.Some? ==> fiber.value in arena)
    ensures fiber.None? ==> r == Quiet
    decreases Rank(bound, fiber)
  {
    match fiber
    case None => Quiet
    case Some(f) =>
      assert LinkedAt(arena, f);
      Then(FiberEffect(arena, bound, f), Then(CommitWork(arena, bound, arena[f].child), CommitWork(arena, bound, arena[f].sibling)))
  }

  /** The fibers commitWork visits from `fiber`, in visiting order. */
  function Visit(arena: Arena, bound: FiberId, fiber: Option<FiberId>): (s: seq<FiberId>)
    requires Wf(arena, bound) && (fiber.Some? ==> fiber.value in arena)
    ensures forall i | 0 <= i < |s| :: s[i] in arena
    ensures fiber.None? <==> s == []
    decreases Rank(bound, fiber)
  {
    match fiber
    case None => []
    case Some(f) =>
      assert LinkedAt(arena, f);
      [f] + Visit(arena, bound, arena[f].child) + Visit(arena, bound, arena[f].sibling)
  }

  /** The fibers' own effects one after another, stopping at the first fault. */
  function Effects(arena: Arena, bound: FiberId, fs: seq<FiberId>): (r: Log)
    requires Wf(arena, bound) && forall i | 0 <= i < |fs| :: fs[i] in arena
    decreases |fs|
  {
    if fs == [] then Quiet else Then(FiberEffect(arena, bound, fs[0]), Effects(arena, bound, fs[1..]))
  }

  lemma {:induction false} EffectsAppend(arena: Arena, bound: FiberId, a: seq<FiberId>, b: seq<FiberId>)
    requires Wf(arena, bound)
    requires forall i | 0 <= i < |a| :: a[i] in arena
    requires forall i | 0 <= i < |b| :: b[i] in arena
    ensures forall i | 0 <= i < |a + b| :: (a + b)[i] in arena
    ensures Effects(arena, bound, a + b) == Then(Effects(arena, bound, a), Effects(arena, bound, b))
    decreases |a|
  {
    if a == [] {
      assert a + b == b;
      ThenQuiet(Effects(arena, bound, b));
    } else {
      assert (a + b)[0] == a[0] && (a + b)[1..] == a[1..] + b;
      EffectsAppend(arena, bound, a[1..], b);
      ThenAssoc(FiberEffect(arena, bound, a[0]), Effects(arena, bound, a[1..]), Effects(arena, bound, b));
    }
  }

  lemma EffectsCons(arena: Arena, bound: FiberId, f: FiberId, s: seq<FiberId>)
    requires Wf(arena, bound) && f in arena && forall i | 0 <= i < |s| :: s[i] in arena
    ensures forall i | 0 <= i < |[f] + s| :: ([f] + s)[i] in arena
    ensures Effects(arena, bound, [f] + s) == Then(FiberEffect(arena, bound, f), Effects(arena, bound, s))
  {
    assert ([f] + s)[0] == f && ([f] + s)[1..] == s;
  }

  /** The recursive commitWork issues exactly the fibers' own effects in visiting order,
      and stops where the first of them throws. */
  lemma {:induction false} CommitWorkInOrder(arena: Arena, bound: FiberId, fiber: Option<FiberId>)
    requires Wf(arena, bound) && (fiber.Some? ==> fiber.value in arena)
    ensures CommitWork(arena, bound, fiber) == Effects(arena, bound, Visit(arena, bound, fiber))
    decreases Rank(bound, fiber)
  {
    if fiber.Some? {
      var f := fiber.value;
      assert LinkedAt(arena, f);
      CommitWorkInOrder(arena, bound, arena[f].child);
      CommitWorkInOrder(arena, bound, arena[f].sibling);
      VisitEffects(arena, bound, f);
    }
  }

  /** The effects of a fiber followed by two runs of fibers. */
  lemma EffectsSplit(arena: Arena, bound: FiberId, f: FiberId, below: seq<FiberId>, after: seq<FiberId>)
    requires Wf(arena, bound) && f in arena
    requires forall i | 0 <= i < |below| :: below[i] in arena
    requires forall i | 0 <= i < |after| :: after[i] in arena
    ensures forall i | 0 <= i < |[f] + below + after| :: ([f] + below + after)[i] in arena
    ensures Effects(arena, bound, [f] + below + after)
            == Then(FiberEffect(arena, bound, f), Then(Effects(arena, bound, below), Effects(arena, bound, after)))
  {
    EffectsAppend(arena, bound, below, after);
    EffectsCons(arena, bound, f, below + after);
    assert [f] + below + after == [f] + (below + after);
  }

  /** The effects along the visit from a fiber: its own, then those below its child,
      then those from its sibling on. */
  lemma VisitEffects(arena: Arena, bound: FiberId, f: FiberId)
    requires Wf(arena, bound) && f in arena
    ensures LinkedAt(arena, f)
    ensures Effects(arena, bound, Visit(arena, bound, Some(f)))
            == Then(FiberEffect(arena, bound, f),
                    Then(Effects(arena, bound, Visit(arena, bound, arena[f].child)),
                         Effects(arena, bound, Visit(arena, bound, arena[f].sibling))))
  {
    assert LinkedAt(arena, f);
    var below := Visit(arena, bound, arena[f].child);
    var after := Visit(arena, bound, arena[f].sibling);
    EffectsSplit(arena, bound, f, below, after);
  }

  /** The commit visits a rendered tree in the order the work loop rendered it: a laid
      out tree, then whatever follows its root's sibling. */
  lemma {:induction false} VisitPreOrder(arena: Arena, bound: FiberId, t: Traversal.Tree, up: Option<FiberId>, next: Option<FiberId>)
    requires Wf(arena, bound) && Traversal.Laid(arena, t, up, next)
    ensures Visit(arena, bound, Some(t.id)) == Traversal.PreOrder(t) + Visit(arena, bound, next)
    decreases t, 1
  {
    assert LinkedAt(arena, t.id);
    if t.kids == [] {
      assert Traversal.Forest(t.kids) == [];
    } else {
      VisitForest(arena, bound, t, 0);
      assert t.kids[0..] == t.kids;
    }
  }

  lemma {:induction false} VisitForest(arena: Arena, bound: FiberId, t: Traversal.Tree, k: nat)
    requires Wf(arena, bound) && t.id in arena && Traversal.Laid(arena, t, arena[t.id].parent, arena[t.id].sibling)
    requires k < |t.kids|
    ensures t.kids[k].id in arena
    ensures Visit(arena, bound, Some(t.kids[k].id)) == Traversal.Forest(t.kids[k..])
    decreases t, 0, |t.kids| - k
  {
    var kid := t.kids[k];
    var after := if k + 1 < |t.kids| then Some(t.kids[k + 1].id) else None;
    Traversal.LaidKid(arena, t, arena[t.id].parent, arena[t.id].sibling, k);
    VisitPreOrder(arena, bound, kid, Some(t.id), after);
    assert t.kids[k..][0] == kid && t.kids[k..][1..] == t.kids[k + 1..];
    if k + 1 < |t.kids| {
      VisitForest(arena, bound, t, k + 1);
    } else {
      assert t.kids[k + 1..] == [];
    }
  }

  /** `deletions.forEach(commitWork)`. */
  function CommitAll(arena: Arena, bound: FiberId, fs: seq<FiberId>): (r: Log)
    requires Wf(arena, bound) && forall i | 0 <= i < |fs| :: fs[i] in arena
    decreases |fs|
  {
    if fs == [] then Quiet else Then(CommitWork(arena, bound, Some(fs[0])), CommitAll(arena, bound, fs[1..]))
  }

  /** commitRoot's host operations, as written: every deleted fiber goes through
      commitWork, which also walks its child and its sibling, then the new tree. */
  function CommitRoot(arena: Arena, bound: FiberId, root: FiberId, deletions: seq<FiberId>): (r: Log)
    requires Wf(arena, bound) && root in arena && forall i | 0 <= i < |deletions| :: deletions[i] in arena
    ensures LinkedAt(arena, root)
    ensures CommitAll(arena, bound, deletions).fault.Some? ==> r == CommitAll(arena, bound, deletions)
    ensures CommitAll(arena, bound, deletions).fault.None? ==>
              r.ops == CommitAll(arena, bound, deletions).ops + Effects(arena, bound, Visit(arena, bound, arena[root].child)).ops
    ensures CommitAll(arena, bound, deletions).fault.None? ==>
              r.fault == Effects(arena, bound, Visit(arena, bound, arena[root].child)).fault
  {
    assert LinkedAt(arena, root);
    CommitWorkInOrder(arena, bound, arena[root].child);
    Then(CommitAll(arena, bound, deletions), CommitWork(arena, bound, arena[root].child))
  }

  /** A fiber marked for deletion, alone: its host parent, then commitDeletion. */
  function DeleteOne(arena: Arena, bound: FiberId, f: FiberId): (r: Log)
    requires Wf(arena, bound) && f in arena
    ensures r.fault.None? ==> |r.ops| == 1 && r.ops[0].Remove?
    ensures r.fault.None? && arena[f].dom.Some? ==> r.ops[0].node == arena[f].dom.value
    ensures r.fault.Some? ==> r.ops == []
  {
    assert LinkedAt(arena, f);
    match HostParent(arena, arena[f].parent)
    case Failure(e) => Log([], Some(e))
    case Success(domParent) => CommitDeletion(arena, bound, Some(f), domParent)
  }

  /** The deletion pass with each deleted fiber committed on its own. */
  function DeleteAll(arena: Arena, bound: FiberId, fs: seq<FiberId>): (r: Log)
    requires Wf(arena, bound) && forall i | 0 <= i < |fs| :: fs[i] in arena
    ensures r.fault.None? ==> |r.ops| == |fs|
    ensures r.fault.None? ==> forall i | 0 <= i < |fs| :: r.ops[i].Remove?
    ensures r.fault.None? ==> forall i | 0 <= i < |fs| :: arena[fs[i]].dom.Some? ==> r.ops[i].node == arena[fs[i]].dom.value
    ensures r.fault.Some? ==> |r.ops| < |fs|
    decreases |fs|
  {
    if fs == [] then Quiet
    else
      var head := DeleteOne(arena, bound, fs[0]);
      var rest := DeleteAll(arena, bound, fs[1..]);
      var r := Then(head, rest);
      if r.fault.Some? then r
      else
        assert r.ops == head.ops + rest.ops && |head.ops| == 1;
        r
  }

  /** commitRoot with the deletion pass corrected: each deleted fiber's node is removed
      once, and the deleted fibers' children and siblings are left alone. */
  function CommitRootFixed(arena: Arena, bound: FiberId, root: FiberId, deletions: seq<FiberId>): (r: Log)
    requires Wf(arena, bound) && root in arena && forall i | 0 <= i < |deletions| :: deletions[i] in arena
    ensures LinkedAt(arena, root)
    ensures DeleteAll(arena, bound, deletions).fault.Some? ==> r == DeleteAll(arena, bound, deletions)
    ensures DeleteAll(arena, bound, deletions).fault.None? ==>
              r.ops == DeleteAll(arena, bound, deletions).ops + Effects(arena, bound, Visit(arena, bound, arena[root].child)).ops
    ensures DeleteAll(arena, bound, deletions).fault.None? ==>
              r.fault == Effects(arena, bound, Visit(arena, bound, arena[root].child)).fault
  {
    assert LinkedAt(arena, root);
    CommitWorkInOrder(arena, bound, arena[root].child);
    Then(DeleteAll(arena, bound, deletions), CommitWork(arena, bound, arena[root].child))
  }

  /** `after` is `before` followed by one removal per deleted fiber, in order, of the
      fiber's own node when it has one, and then the new tree's effects in visiting
      order. */
  predicate CommitShape(arena: Arena, bound: FiberId, root: FiberId, deletions: seq<FiberId>,
                        before: seq<HostOp>, after: seq<HostOp>)
    requires Wf(arena, bound) && root in arena && LinkedAt(arena, root)
    requires forall i | 0 <= i < |deletions| :: deletions[i] in arena
  {
    && |after| >= |before| + |deletions| && after[..|before|] == before
    && var added := after[|before|..];
       && (forall i | 0 <= i < |deletions| :: added[i].Remove?)
       && (forall i | 0 <= i < |deletions| :: arena[deletions[i]].dom.Some? ==> added[i].node == arena[deletions[i]].dom.value)
       && added[|deletions|..] == Effects(arena, bound, Visit(arena, bound, arena[root].child)).ops
  }

  /** The corrected commit, appended to a log, gives it that shape. */
  lemma CommitShapeAfter(arena: Arena, bound: FiberId, root: FiberId, deletions: seq<FiberId>, before: seq<HostOp>)
    requires Wf(arena, bound) && root in arena && forall i | 0 <= i < |deletions| :: deletions[i] in arena
    requires CommitRootFixed(arena, bound, root, deletions).fault.None?
    ensures LinkedAt(arena, root)
    ensures CommitShape(arena, bound, root, deletions, before, before + CommitRootFixed(arena, bound, root, deletions).ops)
  {
    var ops := CommitRootFixed(arena, bound, root, deletions).ops;
    CommitRootFixedShape(arena, bound, root, deletions);
    var after := before + ops;
    assert after[..|before|] == before && after[|before|..] == ops;
  }

  /** With the deletion pass corrected, the commit's operations are one Remove per
      deleted fiber, in order, followed by the new tree's effects in render order. */
  lemma CommitRootFixedShape(arena: Arena, bound: FiberId, root: FiberId, deletions: seq<FiberId>)
    requires Wf(arena, bound) && root in arena && forall i | 0 <= i < |deletions| :: deletions[i] in arena
    requires CommitRootFixed(arena, bound, root, deletions).fault.None?
    ensures LinkedAt(arena, root)
    ensures var r := CommitRootFixed(arena, bound, root, deletions);
            && |deletions| <= |r.ops|
            && (forall i | 0 <= i < |deletions| :: r.ops[i].Remove?)
            && (forall i | 0 <= i < |deletions| :: arena[deletions[i]].dom.Some? ==> r.ops[i].node == arena[deletions[i]].dom.value)
            && r.ops[|deletions|..] == Effects(arena, bound, Visit(arena, bound, arena[root].child)).ops
  {
    assert LinkedAt(arena, root);
    var d := DeleteAll(arena, bound, deletions);
    var e := Effects(arena, bound, Visit(arena, bound, arena[root].child));
    assert (d.ops + e.ops)[|deletions|..] == e.ops;
  }

  /** The commit performs the effects of the fibers below the root in exactly the order
      the work loop rendered them (the pre-order of the tree after its root). */
  lemma CommitFollowsRender(arena: Arena, bound: FiberId, t: Traversal.Tree)
    requires Wf(arena, bound) && Traversal.Laid(arena, t, None, None) && t.kids != []
    ensures forall i | 0 <= i < |Traversal.Forest(t.kids)| :: Traversal.Forest(t.kids)[i] in arena
    ensures CommitWork(arena, bound, arena[t.id].child) == Effects(arena, bound, Traversal.Forest(t.kids))
  {
    CommitWorkInOrder(arena, bound, arena[t.id].child);
    VisitForest(arena, bound, t, 0);
    assert t.kids[0..] == t.kids;
  }

  /** The old tree of a list that shrinks from <div/><span/> to <p/> after reconciling:
      1 is the committed root (host node 0) with children 2 (div, node 10) and 3
      (span, node 11), both marked for deletion; 4 is the new root, whose only child 5
      (p, node 12) is to be placed. */
  function ShrinkArena(): (arena: Arena)
    ensures Wf(arena, 6) && 4 in arena && 2 in arena && 3 in arena
  {
    var host := Props([], []);
    var arena := map[
      1 := Fiber(Tag("3"), host, Some(0), None, Some(2), None, None, NoEffect, []),
      2 := Fiber(Tag("div"), host, Some(10), Some(1), None, Some(3), None, Deletion, []),
      3 := Fiber(Tag("span"), host, Some(11), Some(1), None, None, None, Deletion, []),
      4 := Fiber(Tag("3"), host, Some(0), None, Some(5), None, Some(1), NoEffect, []),
      5 := Fiber(Tag("p"), host, Some(12), Some(4), None, None, None, Placement, [])];
    assert arena.Keys == {1, 2, 3, 4, 5};
    assert LinkedAt(arena, 1) && LinkedAt(arena, 2) && LinkedAt(arena, 3);
    assert LinkedAt(arena, 4) && LinkedAt(arena, 5);
    arena
  }

  /** As written, commitWork on a deleted fiber walks on into its sibling. When the
      sibling is deleted too, its node is removed twice: once through the first
      fiber's walk and once in its own turn. The second removeChild is on a node that
      is no longer a child, which a DOM rejects. The corrected pass removes it once. */
  lemma AdjacentDeletions(arena: Arena, bound: FiberId, a: FiberId, b: FiberId)
    requires Wf(arena, bound) && a in arena && b in arena
    requires arena[a].sibling == Some(b) && arena[b].sibling.None?
    requires arena[a].child.None? && arena[b].child.None?
    requires arena[a].effectTag == Deletion && arena[b].effectTag == Deletion
    requires arena[a].dom.Some? && arena[b].dom.Some?
    requires arena[b].parent == arena[a].parent
    requires HostParent(arena, arena[a].parent).Success?
    ensures LinkedAt(arena, a)
    ensures var p := HostParent(arena, arena[a].parent).value;
            var (x, y) := (arena[a].dom.value, arena[b].dom.value);
            && CommitAll(arena, bound, [a, b]) == Log([Remove(p, x), Remove(p, y), Remove(p, y)], None)
            && DeleteAll(arena, bound, [a, b]) == Log([Remove(p, x), Remove(p, y)], None)
  {
    assert LinkedAt(arena, a);
    var p := HostParent(arena, arena[a].parent).value;
    var (x, y) := (arena[a].dom.value, arena[b].dom.value);
    DeletedLeaf(arena, bound, b);
    DeletedLeaf(arena, bound, a);
    assert [a, b][1..] == [b] && [b][1..] == [];
    assert CommitAll(arena, bound, [b]) == Log([Remove(p, y)], None);
    assert DeleteAll(arena, bound, [b]) == Log([Remove(p, y)], None);
  }

  /** commitWork on a deleted fiber without children: its node is removed, then the
      walk goes on to its sibling. */
  lemma DeletedLeaf(arena: Arena, bound: FiberId, f: FiberId)
    requires Wf(arena, bound) && f in arena
    requires arena[f].child.None? && arena[f].effectTag == Deletion && arena[f].dom.Some?
    requires HostParent(arena, arena[f].parent).Success?
    ensures LinkedAt(arena, f)
    ensures var removal := Log([Remove(HostParent(arena, arena[f].parent).value, arena[f].dom.value)], None);
            && FiberEffect(arena, bound, f) == removal
            && DeleteOne(arena, bound, f) == removal
            && CommitWork(arena, bound, Some(f)) == Then(removal, CommitWork(arena, bound, arena[f].sibling))
  {
    assert LinkedAt(arena, f);
    ThenQuiet(CommitWork(arena, bound, arena[f].sibling));
  }

  /** The list <div/><span/> re-rendered as <p/>: both old children are deleted and
      node 11 is removed twice. */
  lemma RemovesTwice()
    ensures CommitAll(ShrinkArena(), 6, [2, 3]).ops == [Remove(0, 10), Remove(0, 11), Remove(0, 11)]
    ensures DeleteAll(ShrinkArena(), 6, [2, 3]).ops == [Remove(0, 10), Remove(0, 11)]
  {
    var arena := ShrinkArena();
    assert HostParent(arena, Some(1)) == Success(0);
    AdjacentDeletions(arena, 6, 2, 3);
  }
}

=== FILE: elements.dfy ===
/** Element descriptors and the element factory (createElement / createTextElement). */
module Elements {
  import opened Wrappers

  /** A property value. Functions (event handlers) are compared by identity, so they
      are represented by an opaque identity number. */
  datatype Value = Str(s: string) | Num(n: int) | Bool(b: bool) | Fn(id: nat)

  /** An element type: a host tag name (text elements use the reserved tag
      "TEXT_ELEMENT", the root uses "3") or a function component. */
  datatype ElementType = Tag(name: string) | Component(id: nat)

  const TextTag: ElementType := Tag("TEXT_ELEMENT")

  /** The plain and event attributes of a props object, in key order. */
  type Attrs = seq<(string, Value)>

  /** A props object: its attributes plus the ordered `children` array. */
  datatype Props = Props(attrs: Attrs, children: seq<Element>)

  datatype Element = Element(etype: ElementType, props: Props)

  /** A child as written at a createElement call site: an element or a primitive. */
  datatype Child = Elem(element: Element) | Prim(value: Value)

  /** The keys of an attribute list, in order. */
  function Keys(a: Attrs): (ks: seq<string>)
    ensures |ks| == |a|
    ensures forall i | 0 <= i < |a| :: ks[i] == a[i].0
  {
    if |a| == 0 then [] else [a[0].0] + Keys(a[1..])
  }

  /** Property access `props[key]`: the value of the first entry with that key. */
  function Lookup(a: Attrs, key: string): (v: Option<Value>)
    ensures v.None? <==> key !in Keys(a)
    ensures v.Some? ==> (key, v.value) in a
  {
    if |a| == 0 then None
    else if a[0].0 == key then Some(a[0].1)
    else Lookup(a[1..], key)
  }

  /** A JavaScript object never holds the same key twice. */
  predicate DistinctKeys(a: Attrs) {
    forall i, j | 0 <= i < j < |a| :: a[i].0 != a[j].0
  }

  /** In an object with distinct keys, every entry is what property access returns. */
  lemma {:induction false} LookupDistinct(a: Attrs, key: string, v: Value)
    requires DistinctKeys(a)
    requires (key, v) in a
    ensures Lookup(a, key) == Some(v)
  {
    if a[0] != (key, v) {
      var j :| 0 <= j < |a| && a[j] == (key, v);
      assert j > 0 && a[0].0 != key;
      assert a[1..][j - 1] == (key, v);
      assert DistinctKeys(a[1..]) by {
        forall i, l | 0 <= i < l < |a[1..]| ensures a[1..][i].0 != a[1..][l].0 {
          assert a[1..][i] == a[i + 1] && a[1..][l] == a[l + 1];
        }
      }
      LookupDistinct(a[1..], key, v);
    }
  }

  /** The attributes with every entry named `key` dropped. */
  function Without(a: Attrs, key: string): (r: Attrs)
    ensures Lookup(r, key).None?
    ensures forall k | k != key :: Lookup(r, k) == Lookup(a, k)
    ensures |r| <= |a|
    ensures forall p | p in r :: p in a
  {
    if |a| == 0 then []
    else if a[0].0 == key then Without(a[1..], key)
    else [a[0]] + Without(a[1..], key)
  }

  /** Dropping entries keeps the keys distinct. */
  lemma {:induction false} WithoutDistinct(a: Attrs, key: string)
    requires DistinctKeys(a)
    ensures DistinctKeys(Without(a, key))
    decreases |a|
  {
    if |a| > 0 {
      assert DistinctKeys(a[1..]) by {
        forall i, l | 0 <= i < l < |a[1..]| ensures a[1..][i].0 != a[1..][l].0 {
          assert a[1..][i] == a[i + 1] && a[1..][l] == a[l + 1];
        }
      }
      WithoutDistinct(a[1..], key);
      if a[0].0 != key {
        var rest := Without(a[1..], key);
        forall p | p in rest ensures p.0 != a[0].0 {
          var j :| 0 <= j < |a[1..]| && a[1..][j] == p;
          assert a[j + 1] == p;
        }
        var r := [a[0]] + rest;
        forall i, l | 0 <= i < l < |r| ensures r[i].0 != r[l].0 {
          if i == 0 {
            assert r[l] == rest[l - 1] && r[l] in rest;
          } else {
            assert r[i] == rest[i - 1] && r[l] == rest[l - 1];
          }
        }
      }
    }
  }

  /** createTextElement(text): a TEXT_ELEMENT whose only attribute is `nodeValue`. */
  function CreateTextElement(text: Value): (e: Element)
    ensures e.etype == TextTag
    ensures Keys(e.props.attrs) == ["nodeValue"]
    ensures Lookup(e.props.attrs, "nodeValue") == Some(text)
    ensures e.props.children == []
  {
    Element(TextTag, Props([("nodeValue", text)], []))
  }

  /** One entry of `children.map(...)`: objects are kept, primitives are wrapped. */
  function WrapChild(c: Child): Element {
    match c
    case Elem(e) => e
    case Prim(v) => CreateTextElement(v)
  }

  function WrapChildren(cs: seq<Child>): (es: seq<Element>)
    ensures |es| == |cs|
    ensures forall i | 0 <= i < |cs| :: es[i] == WrapChild(cs[i])
  {
    if |cs| == 0 then [] else [WrapChild(cs[0])] + WrapChildren(cs[1..])
  }

  /** createElement({elementName, attributes, children}). A missing children array
      (`None`) yields no children; the spread attributes are kept except a key named
      "children", which the `children` property overwrites. */
  function CreateElement(elementName: ElementType, attributes: Attrs, children: Option<seq<Child>>): (e: Element)
    ensures e.etype == elementName
    ensures children.None? ==> e.props.children == []
    ensures children.Some? ==> |e.props.children| == |children.value|
    ensures children.Some? ==> forall i | 0 <= i < |children.value| ::
              (children.value[i].Elem? ==> e.props.children[i] == children.value[i].element)
              && (children.value[i].Prim? ==>
                    && e.props.children[i].etype == TextTag
                    && e.props.children[i].props == Props([("nodeValue", children.value[i].value)], []))
    ensures forall k | k != "children" :: Lookup(e.props.attrs, k) == Lookup(attributes, k)
    ensures DistinctKeys(attributes) ==> DistinctKeys(e.props.attrs)
  {
    var kids := if children.None? then [] else WrapChildren(children.value);
    assert DistinctKeys(attributes) ==> DistinctKeys(Without(attributes, "children")) by {
      if DistinctKeys(attributes) { WithoutDistinct(attributes, "children"); }
    }
    Element(elementName, Props(Without(attributes, "children"), kids))
  }
}

=== FILE: fibers.dfy ===
/** Fibers stored in an arena: `map<FiberId, Fiber>` with Option-valued links. */
module Fibers {
  import opened Wrappers
  import opened Elements

  type FiberId = nat

  /** An abstract handle for a host (DOM) node. */
  type NodeId = nat

  datatype EffectTag = NoEffect | Placement | Update | Deletion

  /** A state update `i => ...` passed to a setter. */
  type Action = Value -> Value

  /** One useState cell: its state and the actions queued on it. */
  datatype Hook = Hook(state: Value, queue: seq<Action>)

  /** A fiber. `child`, `sibling` and `hooks` start out absent (None / empty). */
  datatype Fiber = Fiber(
    ftype: ElementType,
    props: Props,
    dom: Option<NodeId>,
    parent: Option<FiberId>,
    child: Option<FiberId>,
    sibling: Option<FiberId>,
    alternate: Option<FiberId>,
    effectTag: EffectTag,
    hooks: seq<Hook>)

  type Arena = map<FiberId, Fiber>

  /** The TypeErrors the engine can throw; each one ends the work loop for good. */
  datatype Fault =
    | NullSibling      // `prevSibling.sibling = ...` with a null prevSibling
    | NoHostParent     // the climb for a parent with a DOM node reached null
    | NoHostChild      // commitDeletion descended to a null child
    | NoAlternate      // an UPDATE fiber without an alternate
    | NoCurrentRoot    // a setter ran before the first commit

  /** The fields the reconciler never writes on an existing fiber. */
  ghost predicate Kept(f: Fiber, g: Fiber) {
    && f.ftype == g.ftype && f.props == g.props && f.dom == g.dom
    && f.parent == g.parent && f.alternate == g.alternate && f.hooks == g.hooks
  }

  /** createFiber(type, props, dom, parent, alternate, effectTag). */
  function CreateFiber(ftype: ElementType, props: Props, dom: Option<NodeId>, parent: Option<FiberId>,
                       alternate: Option<FiberId>, effectTag: EffectTag): Fiber
  {
    Fiber(ftype, props, dom, parent, None, None, alternate, effectTag, [])
  }

  /** The link is absent or names a fiber of the arena below `id`. */
  predicate LinkBelow(arena: Arena, link: Option<FiberId>, id: FiberId) {
    link.None? || (link.value in arena && link.value < id)
  }

  /** The link is absent or names a fiber of the arena above `id`. */
  predicate LinkAbove(arena: Arena, link: Option<FiberId>, id: FiberId) {
    link.None? || (link.value in arena && link.value > id)
  }

  /** Fibers get increasing ids as they are created, so a parent or alternate is
      older than the fiber and a child or next sibling is younger. */
  predicate LinkedAt(arena: Arena, id: FiberId)
    requires id in arena
  {
    && LinkBelow(arena, arena[id].parent, id)
    && LinkAbove(arena, arena[id].child, id)
    && LinkAbove(arena, arena[id].sibling, id)
    && LinkBelow(arena, arena[id].alternate, id)
  }

  predicate Linked(arena: Arena) {
    forall id | id in arena :: LinkedAt(arena, id)
  }

  /** Every fiber id in use is below the next id to hand out. */
  predicate Bounded(arena: Arena, bound: FiberId) {
    forall id | id in arena :: id < bound
  }

  predicate Wf(arena: Arena, bound: FiberId) {
    Linked(arena) && Bounded(arena, bound)
  }

  /** A fiber created at the next free id with no parent, child or sibling, and an
      alternate among the existing fibers, keeps the arena well formed. */
  lemma AddRoot(arena: Arena, bound: FiberId, f: Fiber)
    requires Wf(arena, bound)
    requires f.parent.None? && f.child.None? && f.sibling.None? && LinkBelow(arena, f.alternate, bound)
    ensures Wf(arena[bound := f], bound + 1)
  {
    var r := arena[bound := f];
    forall k | k in r
      ensures LinkedAt(r, k)
    {
      if k != bound {
        assert LinkedAt(arena, k);
      }
    }
  }

  /** The sibling chain starting at `start`: `start`, `start.sibling`, ... */
  function Chain(arena: Arena, bound: FiberId, start: Option<FiberId>): (c: seq<FiberId>)
    requires Wf(arena, bound)
    requires start.None? || start.value in arena
    ensures start.None? <==> c == []
    ensures c != [] ==> c[0] == start.value
    ensures forall i | 0 <= i < |c| :: c[i] in arena
    ensures forall i | 0 <= i < |c| - 1 :: arena[c[i]].sibling == Some(c[i + 1])
    ensures c != [] ==> arena[c[|c| - 1]].sibling.None?
    ensures forall i, j | 0 <= i < j < |c| :: c[i] < c[j]
    decreases if start.Some? then bound - start.value else 0
  {
    if start.None? then []
    else
      assert LinkedAt(arena, start.value);
      [start.value] + Chain(arena, bound, arena[start.value].sibling)
  }

  /** The previous generation's children of `wip`: `wip.alternate && wip.alternate.child`
      and its sibling chain. */
  function OldChildren(arena: Arena, bound: FiberId, wip: FiberId): (prior: seq<FiberId>)
    requires Wf(arena, bound) && wip in arena
    ensures forall i | 0 <= i < |prior| :: prior[i] in arena
    ensures forall i, j | 0 <= i < j < |prior| :: prior[i] < prior[j]
  {
    assert LinkedAt(arena, wip);
    match arena[wip].alternate
    case None => []
    case Some(a) =>
      assert LinkedAt(arena, a);
      Chain(arena, bound, arena[a].child)
  }
}

=== FILE: hooks.dfy ===
/** useState and its setter (index.js:259-293). A setter is identified by the fiber
    whose hook it closes over and the hook's index on that fiber. */
module Hooks {
  import opened Wrappers
  import opened Elements
  import opened Fibers

  /** `actions.forEach(action => hook.state = action(hook.state))`: the queue applied
      front to back. */
  function Drain(state: Value, queue: seq<Action>): Value
    decreases |queue|
  {
    if queue == [] then state else Drain(queue[0](state), queue[1..])
  }

  /** The queue as a composition: the last action queued is the last one applied. */
  function Composed(state: Value, queue: seq<Action>): Value
    decreases |queue|
  {
    if queue == [] then state else queue[|queue| - 1](Composed(state, queue[..|queue| - 1]))
  }

  /** Draining two batches one after the other is draining them as one batch. */
  lemma {:induction false} DrainAppend(state: Value, p: seq<Action>, q: seq<Action>)
    ensures Drain(state, p + q) == Drain(Drain(state, p), q)
    decreases |p|
  {
    if p != [] {
      assert (p + q)[1..] == p[1..] + q;
      DrainAppend(p[0](state), p[1..], q);
    } else {
      assert p + q == q;
    }
  }

  /** The drain applies the actions in the order they were queued. */
  lemma {:induction false} DrainInOrder(state: Value, queue: seq<Action>)
    ensures Drain(state, queue) == Composed(state, queue)
    decreases |queue|
  {
    if queue != [] {
      var init := queue[..|queue| - 1];
      var last := queue[|queue| - 1];
      assert queue == init + [last];
      DrainAppend(state, init, [last]);
      DrainInOrder(state, init);
    }
  }

  /** The fiber being rendered is in the arena and its alternate, if any, is an older
      fiber of the arena (what Linked guarantees for it). */
  predicate Rendering(arena: Arena, fiber: FiberId) {
    fiber in arena && LinkBelow(arena, arena[fiber].alternate, fiber)
  }

  lemma LinkedRendering(arena: Arena, fiber: FiberId)
    requires Linked(arena) && fiber in arena
    ensures Rendering(arena, fiber)
  {
    assert LinkedAt(arena, fiber);
  }

  /** `wipFiber.alternate && wipFiber.alternate.hooks && wipFiber.alternate.hooks[hookIndex]`. */
  function OldHook(arena: Arena, fiber: FiberId, hookIndex: nat): (h: Option<Hook>)
    requires Rendering(arena, fiber)
    ensures h.Some? <==> arena[fiber].alternate.Some? && hookIndex < |arena[arena[fiber].alternate.value].hooks|
    ensures h.Some? ==> h.value == arena[arena[fiber].alternate.value].hooks[hookIndex]
  {
    match arena[fiber].alternate
    case None => None
    case Some(a) => if hookIndex < |arena[a].hooks| then Some(arena[a].hooks[hookIndex]) else None
  }

  /** The arena with the hooks of `fiber` replaced; hooks carry no links. */
  function WithHooks(arena: Arena, fiber: FiberId, hooks: seq<Hook>): (r: Arena)
    requires fiber in arena
    ensures r.Keys == arena.Keys && r[fiber].hooks == hooks
    ensures Kept(r[fiber], arena[fiber].(hooks := hooks)) && r[fiber].child == arena[fiber].child
    ensures r[fiber].sibling == arena[fiber].sibling && r[fiber].effectTag == arena[fiber].effectTag
    ensures forall k | k in arena && k != fiber :: r[k] == arena[k]
  {
    arena[fiber := arena[fiber].(hooks := hooks)]
  }


  /** Replacing hooks keeps the arena linked. */
  lemma WithHooksLinked(arena: Arena, fiber: FiberId, hooks: seq<Hook>)
    requires Linked(arena) && fiber in arena
    ensures Linked(WithHooks(arena, fiber, hooks))
  {
    var r := WithHooks(arena, fiber, hooks);
    forall k | k in r
      ensures LinkedAt(r, k)
    {
      assert LinkedAt(arena, k);
    }
  }


  /** The state a useState call at `hookIndex` resumes from: the old hook's state with its
      queue applied in order, or `initial` when the previous render had no such hook. */
  function Resumed(arena: Arena, fiber: FiberId, hookIndex: nat, initial: Value): Value
    requires Rendering(arena, fiber)
  {
    match OldHook(arena, fiber, hookIndex)
    case None => initial
    case Some(h) => Composed(h.state, h.queue)
  }


  /** What a render of a function component has built so far: the fiber's new hooks
      (`wipFiber.hooks`) and the hook cursor (`hookIndex`). Only the component runs
      while they are built, so the arena is written once, when the render ends. */
  datatype Render = Render(hooks: seq<Hook>, hookIndex: nat)

  /** useState(initial) while rendering `fiber`: the new hook starts from the alternate's
      hook at the cursor (its state, or `initial` when the alternate has no such hook),
      takes in that hook's queued actions, and is pushed with an empty queue. */
  function UseState(arena: Arena, fiber: FiberId, render: Render, initial: Value): (r: (Value, Render))
    requires Rendering(arena, fiber)
    ensures r.0 == Resumed(arena, fiber, render.hookIndex, initial)
    ensures r.1 == Render(render.hooks + [Hook(r.0, [])], render.hookIndex + 1)
  {
    var prior := OldHook(arena, fiber, render.hookIndex);
    var seed := if prior.Some? then prior.value.state else initial;
    var actions := if prior.Some? then prior.value.queue else [];
    DrainInOrder(seed, actions);
    var state := Drain(seed, actions);
    (state, Render(render.hooks + [Hook(state, [])], render.hookIndex + 1))
  }

  /** Fresh hooks holding the given states with empty queues. */
  function FreshHooks(states: seq<Value>): (hooks: seq<Hook>)
    ensures |hooks| == |states|
    ensures forall j | 0 <= j < |states| :: hooks[j] == Hook(states[j], [])
  {
    if states == [] then [] else [Hook(states[0], [])] + FreshHooks(states[1..])
  }

  lemma FreshHooksCons(prefix: seq<Hook>, state: Value, states: seq<Value>)
    ensures prefix + FreshHooks([state] + states) == (prefix + [Hook(state, [])]) + FreshHooks(states)
  {
    assert ([state] + states)[1..] == states;
  }

  /** The useState calls of one render, in call order: each pushes one hook and moves
      the cursor by one. */
  function UseStatesFrom(arena: Arena, fiber: FiberId, initials: seq<Value>, render: Render): (r: (seq<Value>, Render))
    requires Rendering(arena, fiber)
    ensures |r.0| == |initials|
    ensures r.1 == Render(render.hooks + FreshHooks(r.0), render.hookIndex + |initials|)
    decreases |initials|
  {
    if initials == [] then
      assert render.hooks + [] == render.hooks;
      ([], render)
    else
      var (state, next) := UseState(arena, fiber, render, initials[0]);
      var rest := UseStatesFrom(arena, fiber, initials[1..], next);
      FreshHooksCons(render.hooks, state, rest.0);
      ([state] + rest.0, rest.1)
  }

  /** Call j of the render resumes from the alternate's hook at cursor position j. */
  lemma {:induction false} UseStatesResume(arena: Arena, fiber: FiberId, initials: seq<Value>, render: Render, j: nat)
    requires Rendering(arena, fiber) && j < |initials|
    ensures UseStatesFrom(arena, fiber, initials, render).0[j] == Resumed(arena, fiber, render.hookIndex + j, initials[j])
    decreases j
  {
    var (state, next) := UseState(arena, fiber, render, initials[0]);
    var rest := UseStatesFrom(arena, fiber, initials[1..], next).0;
    assert UseStatesFrom(arena, fiber, initials, render).0 == [state] + rest;
    if j > 0 {
      UseStatesResume(arena, fiber, initials[1..], next, j - 1);
      assert initials[1..][j - 1] == initials[j];
    }
  }

  /** updateFunctionComponent's reset (`wipFiber.hooks = []`, `hookIndex = 0`), the
      component's useState calls, and the finished hooks stored on the fiber. */
  function UseStates(arena: Arena, fiber: FiberId, initials: seq<Value>): (r: (seq<Value>, Arena))
    requires Rendering(arena, fiber)
    ensures |r.0| == |initials|
    ensures r.1 == WithHooks(arena, fiber, FreshHooks(r.0))
  {
    var (states, render) := UseStatesFrom(arena, fiber, initials, Render([], 0));
    assert [] + FreshHooks(states) == FreshHooks(states);
    (states, WithHooks(arena, fiber, render.hooks))
  }

  /** Hook j of a rendered function component resumes from hook j of its alternate: the
      old state with the queued actions applied in order, or the initial value. */
  lemma UseStatesAligned(arena: Arena, fiber: FiberId, initials: seq<Value>)
    requires Rendering(arena, fiber)
    ensures var states := UseStates(arena, fiber, initials).0;
            forall j | 0 <= j < |initials| :: states[j] == Resumed(arena, fiber, j, initials[j])
  {
    var states := UseStatesFrom(arena, fiber, initials, Render([], 0)).0;
    assert UseStates(arena, fiber, initials).0 == states;
    forall j | 0 <= j < |initials|
      ensures states[j] == Resumed(arena, fiber, j, initials[j])
    {
      UseStatesResume(arena, fiber, initials, Render([], 0), j);
    }
  }

  /** `hook.queue.push(action)`: the setter of hook `hookIndex` on `fiber`. */
  function Enqueue(arena: Arena, fiber: FiberId, hookIndex: nat, action: Action): (a: Arena)
    requires fiber in arena && hookIndex < |arena[fiber].hooks|
    ensures a.Keys == arena.Keys
    ensures |a[fiber].hooks| == |arena[fiber].hooks|
    ensures a[fiber].hooks[hookIndex] == arena[fiber].hooks[hookIndex].(queue := arena[fiber].hooks[hookIndex].queue + [action])
    ensures forall j | 0 <= j < |a[fiber].hooks| && j != hookIndex :: a[fiber].hooks[j] == arena[fiber].hooks[j]
    ensures forall k | k in arena && k != fiber :: a[k] == arena[k]
    ensures a[fiber] == arena[fiber].(hooks := a[fiber].hooks)
  {
    var hooks := arena[fiber].hooks;
    WithHooks(arena, fiber, hooks[hookIndex := hooks[hookIndex].(queue := hooks[hookIndex].queue + [action])])
  }

  /** A queued action is applied after the actions queued before it. */
  lemma ComposedSnoc(state: Value, queue: seq<Action>, action: Action)
    ensures Composed(state, queue + [action]) == action(Composed(state, queue))
  {
    assert (queue + [action])[..|queue|] == queue;
  }

  /** The partner of the setter: the next render of a fiber whose alternate holds the
      hook resumes from the hook's pending result with the new action applied last. */
  lemma EnqueueThenResume(arena: Arena, current: FiberId, hookIndex: nat, action: Action, wip: FiberId, initial: Value)
    requires Rendering(arena, wip) && arena[wip].alternate == Some(current)
    requires hookIndex < |arena[current].hooks|
    ensures Rendering(Enqueue(arena, current, hookIndex, action), wip)
    ensures var h := arena[current].hooks[hookIndex];
            Resumed(Enqueue(arena, current, hookIndex, action), wip, hookIndex, initial) == action(Composed(h.state, h.queue))
  {
    var h := arena[current].hooks[hookIndex];
    ComposedSnoc(h.state, h.queue, action);
  }

  /** `c => c + 1`, the action of the counter component. */
  function Increment(v: Value): Value {
    if v.Num? then Num(v.n + 1) else v
  }

  /** Two clicks of the counter before it re-renders: a hook at 1 with two queued
      increments resumes at 3. */
  lemma CounterTwoClicks(arena: Arena, current: FiberId, wip: FiberId)
    requires Rendering(arena, wip) && arena[wip].alternate == Some(current)
    requires arena[current].hooks == [Hook(Num(1), [])]
    ensures var clicked := Enqueue(Enqueue(arena, current, 0, Increment), current, 0, Increment);
            Rendering(clicked, wip) && Resumed(clicked, wip, 0, Num(1)) == Num(3)
  {
    var once := Enqueue(arena, current, 0, Increment);
    EnqueueThenResume(once, current, 0, Increment, wip, Num(1));
    assert once[current].hooks[0] == Hook(Num(1), [Increment]);
    ComposedSnoc(Num(1), [], Increment);
    assert [] + [Increment] == [Increment];
  }
}

=== FILE: prop_diff.dfy ===
/** The property diff of updateDom, as a pure function from (prevProps, nextProps)
    to the ordered list of host operations it performs on one node. */
module PropDiff {
  import opened Wrappers
  import opened Elements

  /** isEvent: the key starts with "on" (case-sensitive). */
  predicate IsEvent(key: string) {
    |key| >= 2 && key[0] == 'o' && key[1] == 'n'
  }

  /** isProperty: neither the children array nor an event handler. */
  predicate IsProperty(key: string) {
    key != "children" && !IsEvent(key)
  }

  /** isNew(prev, next)(key): `prev[key] !== next[key]`. */
  predicate IsNew(prev: Attrs, next: Attrs, key: string) {
    Lookup(prev, key) != Lookup(next, key)
  }

  /** isGone(prev, next)(key): `!(key in next)`. */
  predicate IsGone(next: Attrs, key: string) {
    Lookup(next, key).None?
  }

  /** ASCII `toLowerCase` on one character. */
  function LowerChar(c: char): char {
    if 'A' <= c <= 'Z' then (c as int + 32) as char else c
  }

  function ToLower(s: string): (r: string)
    ensures |r| == |s|
    ensures forall i | 0 <= i < |s| :: r[i] == LowerChar(s[i])
  {
    if |s| == 0 then "" else [LowerChar(s[0])] + ToLower(s[1..])
  }

  /** `name.toLowerCase().substring(2)`: the DOM event type of a handler key. */
  function EventName(key: string): (e: string)
    ensures |key| >= 2 ==> |e| == |key| - 2
    ensures |key| >= 2 ==> forall i | 0 <= i < |e| :: e[i] == LowerChar(key[i + 2])
  {
    var lower := ToLower(key);
    if |lower| < 2 then "" else lower[2..]
  }

  /** One host operation on a node's properties. `Clear` writes the empty string. */
  datatype PropOp =
    | Clear(name: string)
    | Set(name: string, value: Value)
    | Unlisten(event: string, handler: Value)
    | Listen(event: string, handler: Value)

  /** The four passes of updateDom happen in this order. */
  function Phase(op: PropOp): nat {
    match op
    case Clear(_) => 0
    case Set(_, _) => 1
    case Unlisten(_, _) => 2
    case Listen(_, _) => 3
  }

  /** Pass 1 over the keys of prevProps: clear plain properties gone from nextProps. */
  function ClearGone(walk: Attrs, next: Attrs): (ops: seq<PropOp>)
    ensures forall op | op in ops :: op.Clear? && op.name in Keys(walk) && IsProperty(op.name) && IsGone(next, op.name)
    ensures forall k | k in Keys(walk) && IsProperty(k) && IsGone(next, k) :: Clear(k) in ops
  {
    if |walk| == 0 then []
    else
      var k := walk[0].0;
      assert Keys(walk) == [k] + Keys(walk[1..]);
      (if IsProperty(k) && IsGone(next, k) then [Clear(k)] else []) + ClearGone(walk[1..], next)
  }

  /** Pass 2 over the keys of nextProps: set new or changed plain properties. */
  function SetNew(walk: Attrs, prev: Attrs, next: Attrs): (ops: seq<PropOp>)
    ensures forall op | op in ops :: op.Set? && (op.name, op.value) in walk && IsProperty(op.name) && IsNew(prev, next, op.name)
    ensures forall p | p in walk && IsProperty(p.0) && IsNew(prev, next, p.0) :: Set(p.0, p.1) in ops
  {
    if |walk| == 0 then []
    else
      var (k, v) := walk[0];
      (if IsProperty(k) && IsNew(prev, next, k) then [Set(k, v)] else []) + SetNew(walk[1..], prev, next)
  }

  /** Pass 3 over the keys of prevProps: unregister handlers that are gone or changed. */
  function RemoveOld(walk: Attrs, prev: Attrs, next: Attrs): (ops: seq<PropOp>)
    ensures forall op | op in ops :: op.Unlisten? && exists p | p in walk ::
              && IsEvent(p.0) && op == Unlisten(EventName(p.0), p.1)
              && (IsGone(next, p.0) || IsNew(prev, next, p.0))
    ensures forall p | p in walk && IsEvent(p.0) && (IsGone(next, p.0) || IsNew(prev, next, p.0)) ::
              Unlisten(EventName(p.0), p.1) in ops
  {
    if |walk| == 0 then []
    else
      var (k, v) := walk[0];
      (if IsEvent(k) && (IsGone(next, k) || IsNew(prev, next, k)) then [Unlisten(EventName(k), v)] else [])
        + RemoveOld(walk[1..], prev, next)
  }

  /** Pass 4 over the keys of nextProps: register new or changed handlers. */
  function AddNew(walk: Attrs, prev: Attrs, next: Attrs): (ops: seq<PropOp>)
    ensures forall op | op in ops :: op.Listen? && exists p | p in walk ::
              IsEvent(p.0) && op == Listen(EventName(p.0), p.1) && IsNew(prev, next, p.0)
    ensures forall p | p in walk && IsEvent(p.0) && IsNew(prev, next, p.0) :: Listen(EventName(p.0), p.1) in ops
  {
    if |walk| == 0 then []
    else
      var (k, v) := walk[0];
      (if IsEvent(k) && IsNew(prev, next, k) then [Listen(EventName(k), v)] else []) + AddNew(walk[1..], prev, next)
  }

  /** Every operation comes no earlier than the operations before it: the passes run in order. */
  predicate PhaseOrdered(ops: seq<PropOp>) {
    forall i, j | 0 <= i < j < |ops| :: Phase(ops[i]) <= Phase(ops[j])
  }

  lemma ConcatOrdered(a: seq<PropOp>, b: seq<PropOp>, p: nat)
    requires PhaseOrdered(a) && PhaseOrdered(b)
    requires forall x | x in a :: Phase(x) <= p
    requires forall y | y in b :: p <= Phase(y)
    ensures PhaseOrdered(a + b)
  {
    forall i, j | 0 <= i < j < |a + b| ensures Phase((a + b)[i]) <= Phase((a + b)[j]) {
      if j < |a| {
        assert (a + b)[i] == a[i] && (a + b)[j] == a[j];
      } else if i >= |a| {
        assert (a + b)[i] == b[i - |a|] && (a + b)[j] == b[j - |a|];
      } else {
        assert (a + b)[i] in a && (a + b)[j] in b;
      }
    }
  }

  lemma UniformOrdered(a: seq<PropOp>, p: nat)
    requires forall x | x in a :: Phase(x) == p
    ensures PhaseOrdered(a)
  {
    forall i, j | 0 <= i < j < |a| ensures Phase(a[i]) <= Phase(a[j]) {
      assert a[i] in a && a[j] in a;
    }
  }

  /** The four passes in order form a phase-ordered list. */
  lemma PassesOrdered(clears: seq<PropOp>, sets: seq<PropOp>, removes: seq<PropOp>, adds: seq<PropOp>)
    requires forall x | x in clears :: x.Clear?
    requires forall x | x in sets :: x.Set?
    requires forall x | x in removes :: x.Unlisten?
    requires forall x | x in adds :: x.Listen?
    ensures PhaseOrdered(clears + sets + removes + adds)
  {
    UniformOrdered(clears, 0);
    UniformOrdered(sets, 1);
    UniformOrdered(removes, 2);
    UniformOrdered(adds, 3);
    ConcatOrdered(clears, sets, 0);
    ConcatOrdered(clears + sets, removes, 1);
    ConcatOrdered(clears + sets + removes, adds, 2);
  }

  /** What licenses an operation of updateDom: a cleared property was in prevProps and
      is gone from nextProps; a set property is new or changed; a handler is removed
      when gone or changed and added when new or changed, under its event name. */
  predicate Justified(prev: Attrs, next: Attrs, op: PropOp) {
    match op
    case Clear(k) => k in Keys(prev) && IsProperty(k) && IsGone(next, k)
    case Set(k, v) => (k, v) in next && IsProperty(k) && IsNew(prev, next, k)
    case Unlisten(_, _) => exists p | p in prev ::
      IsEvent(p.0) && op == Unlisten(EventName(p.0), p.1) && (IsGone(next, p.0) || IsNew(prev, next, p.0))
    case Listen(_, _) => exists p | p in next ::
      IsEvent(p.0) && op == Listen(EventName(p.0), p.1) && IsNew(prev, next, p.0)
  }

  lemma PassesJustified(prev: Attrs, next: Attrs, clears: seq<PropOp>, sets: seq<PropOp>, removes: seq<PropOp>, adds: seq<PropOp>)
    requires clears == ClearGone(prev, next) && sets == SetNew(next, prev, next)
    requires removes == RemoveOld(prev, prev, next) && adds == AddNew(next, prev, next)
    ensures forall op | op in clears + sets + removes + adds :: Justified(prev, next, op)
  {
    forall op | op in clears + sets + removes + adds
      ensures Justified(prev, next, op)
    {
      if op in clears {
      } else if op in sets {
      } else if op in removes {
      } else {
        assert op in adds;
      }
    }
  }

  /** updateDom(dom, prevProps, nextProps) as the list of operations it applies to `dom`:
      the four passes in order, each operation licensed by a difference between the
      two props objects. The children key never produces an operation. */
  function UpdateDom(prev: Attrs, next: Attrs): (ops: seq<PropOp>)
    ensures PhaseOrdered(ops)
    ensures forall op | op in ops :: Justified(prev, next, op)
  {
    var clears := ClearGone(prev, next);
    var sets := SetNew(next, prev, next);
    var removes := RemoveOld(prev, prev, next);
    var adds := AddNew(next, prev, next);
    PassesOrdered(clears, sets, removes, adds);
    PassesJustified(prev, next, clears, sets, removes, adds);
    clears + sets + removes + adds
  }

  /** Diffing a props object against itself changes nothing. */
  lemma UpdateDomUnchanged(props: Attrs)
    ensures UpdateDom(props, props) == []
  {
    PassesEmptyOnSelf(props, props);
  }

  /** Walking any part of `props` against `props` itself finds nothing gone or new. */
  lemma {:induction false} PassesEmptyOnSelf(walk: Attrs, props: Attrs)
    requires forall p | p in walk :: p in props
    ensures ClearGone(walk, props) == []
    ensures SetNew(walk, props, props) == []
    ensures RemoveOld(walk, props, props) == []
    ensures AddNew(walk, props, props) == []
  {
    if |walk| > 0 {
      var k := walk[0].0;
      assert walk[0] in props;
      assert k in Keys(props) by {
        var j :| 0 <= j < |props| && props[j] == walk[0];
        assert Keys(props)[j] == k;
      }
      assert !IsGone(props, k);
      assert forall p | p in walk[1..] :: p in walk;
      PassesEmptyOnSelf(walk[1..], props);
    }
  }

  /** The converse of UpdateDom's contract: every difference between two props
      objects is emitted as the matching operation. */
  lemma UpdateDomComplete(prev: Attrs, next: Attrs)
    requires DistinctKeys(prev) && DistinctKeys(next)
    ensures forall k | k in Keys(prev) && IsProperty(k) && k !in Keys(next) :: Clear(k) in UpdateDom(prev, next)
    ensures forall p | p in next && IsProperty(p.0) && Lookup(prev, p.0) != Some(p.1) ::
              Set(p.0, p.1) in UpdateDom(prev, next)
    ensures forall p | p in prev && IsEvent(p.0) && Lookup(next, p.0) != Some(p.1) ::
              Unlisten(EventName(p.0), p.1) in UpdateDom(prev, next)
    ensures forall p | p in next && IsEvent(p.0) && Lookup(prev, p.0) != Some(p.1) ::
              Listen(EventName(p.0), p.1) in UpdateDom(prev, next)
  {
    var clears := ClearGone(prev, next);
    var sets := SetNew(next, prev, next);
    var removes := RemoveOld(prev, prev, next);
    var adds := AddNew(next, prev, next);
    assert UpdateDom(prev, next) == clears + sets + removes + adds;
    forall p | p in next && IsProperty(p.0) && Lookup(prev, p.0) != Some(p.1)
      ensures Set(p.0, p.1) in UpdateDom(prev, next)
    {
      LookupDistinct(next, p.0, p.1);
      assert Set(p.0, p.1) in sets;
    }
    forall p | p in prev && IsEvent(p.0) && Lookup(next, p.0) != Some(p.1)
      ensures Unlisten(EventName(p.0), p.1) in UpdateDom(prev, next)
    {
      LookupDistinct(prev, p.0, p.1);
      assert Unlisten(EventName(p.0), p.1) in removes;
    }
    forall p | p in next && IsEvent(p.0) && Lookup(prev, p.0) != Some(p.1)
      ensures Listen(EventName(p.0), p.1) in UpdateDom(prev, next)
    {
      LookupDistinct(next, p.0, p.1);
      assert Listen(EventName(p.0), p.1) in adds;
    }
  }

  /** The effect of one operation on a node's plain properties (`dom[name] = ...`). */
  function Write(store: map<string, Value>, op: PropOp): map<string, Value> {
    match op
    case Clear(k) => store[k := Str("")]
    case Set(k, v) => store[k := v]
    case _ => store
  }

  /** A node's plain properties after a list of operations. */
  function ApplyProps(store: map<string, Value>, ops: seq<PropOp>): map<string, Value>
    decreases |ops|
  {
    if |ops| == 0 then store else ApplyProps(Write(store, ops[0]), ops[1..])
  }

  predicate Touches(op: PropOp, k: string) {
    (op.Clear? || op.Set?) && op.name == k
  }

  function Written(op: PropOp): Value
    requires op.Clear? || op.Set?
  {
    if op.Clear? then Str("") else op.value
  }

  /** When every write to `k` writes the same value, the final value of `k` is that
      value if anything wrote it and the old value otherwise. */
  lemma {:induction false} ApplyUniform(store: map<string, Value>, ops: seq<PropOp>, k: string, w: Value)
    requires forall op | op in ops && Touches(op, k) :: Written(op) == w
    ensures (exists op | op in ops :: Touches(op, k)) ==> k in ApplyProps(store, ops) && ApplyProps(store, ops)[k] == w
    ensures (forall op | op in ops :: !Touches(op, k)) ==>
              (k in ApplyProps(store, ops) <==> k in store)
              && (k in store ==> ApplyProps(store, ops)[k] == store[k])
    decreases |ops|
  {
    if |ops| > 0 {
      var s1 := Write(store, ops[0]);
      assert forall op | op in ops[1..] :: op in ops;
      ApplyUniform(s1, ops[1..], k, w);
      assert ApplyProps(store, ops) == ApplyProps(s1, ops[1..]);
      if Touches(ops[0], k) {
        assert k in s1 && s1[k] == w;
      }
      if exists op | op in ops :: Touches(op, k) {
        var op :| op in ops && Touches(op, k);
        if op != ops[0] {
          assert op in ops[1..];
        }
      }
    }
  }

  /** Applying the diff to a node whose plain properties match prevProps leaves it
      matching nextProps: new and changed values are written, removed ones read "",
      and untouched ones keep their value. */
  lemma UpdateDomRealizes(store: map<string, Value>, prev: Attrs, next: Attrs)
    requires DistinctKeys(next)
    requires forall k | IsProperty(k) && Lookup(prev, k).Some? :: k in store && store[k] == Lookup(prev, k).value
    ensures forall k | IsProperty(k) && Lookup(next, k).Some? ::
              k in ApplyProps(store, UpdateDom(prev, next))
              && ApplyProps(store, UpdateDom(prev, next))[k] == Lookup(next, k).value
    ensures forall k | IsProperty(k) && Lookup(next, k).None? && Lookup(prev, k).Some? ::
              k in ApplyProps(store, UpdateDom(prev, next))
              && ApplyProps(store, UpdateDom(prev, next))[k] == Str("")
    ensures forall k | IsProperty(k) && Lookup(next, k).None? && Lookup(prev, k).None? ::
              (k in ApplyProps(store, UpdateDom(prev, next)) <==> k in store)
              && (k in store ==> ApplyProps(store, UpdateDom(prev, next))[k] == store[k])
  {
    var ops := UpdateDom(prev, next);
    var after := ApplyProps(store, ops);
    forall k | IsProperty(k)
      ensures Lookup(next, k).Some? ==> k in after && after[k] == Lookup(next, k).value
      ensures Lookup(next, k).None? && Lookup(prev, k).Some? ==> k in after && after[k] == Str("")
      ensures Lookup(next, k).None? && Lookup(prev, k).None? ==>
                (k in after <==> k in store) && (k in store ==> after[k] == store[k])
    {
      var w := if Lookup(next, k).Some? then Lookup(next, k).value else Str("");
      forall op | op in ops && Touches(op, k) ensures Written(op) == w {
        if op.Set? {
          LookupDistinct(next, op.name, op.value);
        }
      }
      ApplyUniform(store, ops, k, w);
      if Lookup(next, k).Some? && Lookup(prev, k) != Lookup(next, k) {
        UpdateDomComplete([], next);
        var v := Lookup(next, k).value;
        assert (k, v) in next;
        assert Set(k, v) in SetNew(next, prev, next);
        assert Set(k, v) in ops;
        assert Touches(Set(k, v), k);
      } else if Lookup(prev, k).Some? && Lookup(next, k).None? {
        assert Clear(k) in ClearGone(prev, next);
        assert Clear(k) in ops;
        assert Touches(Clear(k), k);
      }
    }
  }
}

=== FILE: reconcile.dfy ===
/** reconcileChildren: the positional diff of new elements against the previous
    generation's child chain. */
module Reconcile {
  import opened Wrappers
  import opened Elements
  import opened Fibers

  /** The state the loop carries from one index to the next. */
  datatype Cursor = Cursor(arena: Arena, prev: Option<FiberId>, deletions: seq<FiberId>, next: FiberId)

  /** What a finished reconciliation leaves behind. */
  datatype Reconciled = Reconciled(arena: Arena, deletions: seq<FiberId>, next: FiberId)

  predicate AllIn(arena: Arena, prior: seq<FiberId>) {
    forall j | 0 <= j < |prior| :: prior[j] in arena
  }

  /** `sameType`: both an old fiber and an element exist at index i and their types match. */
  predicate SameType(arena: Arena, elements: seq<Element>, prior: seq<FiberId>, i: nat)
    requires AllIn(arena, prior)
  {
    i < |elements| && i < |prior| && arena[prior[i]].ftype == elements[i].etype
  }

  /** The fiber created for element i (before the next index links its sibling). */
  function NewFiber(arena: Arena, wip: FiberId, elements: seq<Element>, prior: seq<FiberId>, i: nat): Fiber
    requires AllIn(arena, prior) && i < |elements|
  {
    if SameType(arena, elements, prior, i) then
      CreateFiber(arena[prior[i]].ftype, elements[i].props, arena[prior[i]].dom, Some(wip), Some(prior[i]), Update)
    else
      CreateFiber(elements[i].etype, elements[i].props, None, Some(wip), None, Placement)
  }

  /** The old fibers from index i on that have no same-type element at their index. */
  function Unmatched(arena: Arena, elements: seq<Element>, prior: seq<FiberId>, i: nat): seq<FiberId>
    requires AllIn(arena, prior)
    decreases |prior| - i
  {
    if i >= |prior| then []
    else (if SameType(arena, elements, prior, i) then [] else [prior[i]]) + Unmatched(arena, elements, prior, i + 1)
  }

  /** What the loop knows on entry to index i: `prevSibling` is the fiber made at
      index i - 1, which exists exactly when that index had an element. */
  predicate Entry(arena: Arena, wip: FiberId, elements: seq<Element>, prior: seq<FiberId>, i: nat,
                  prev: Option<FiberId>, next: FiberId)
  {
    && wip in arena
    && AllIn(arena, prior)
    && Bounded(arena, next)
    && (0 < i <= |elements| ==> next > 0 && prev == Some(next - 1))
    && (!(0 < i <= |elements|) ==> prev.None?)
    && (prev.Some? ==> prev.value in arena && arena[prev.value].sibling.None?)
  }

  /** The effect of the iteration at index i: its bookkeeping and the new fiber ... */
  ghost predicate Stepped(arena: Arena, wip: FiberId, elements: seq<Element>, prior: seq<FiberId>, i: nat,
                          prev: Option<FiberId>, deletions: seq<FiberId>, next: FiberId, c: Cursor)
    requires AllIn(arena, prior)
  {
    && c.next == next + (if i < |elements| then 1 else 0)
    && c.prev == (if i < |elements| then Some(next) else None)
    && (forall k :: k in c.arena <==> k in arena || (i < |elements| && k == next))
    && (i < |elements| ==> c.arena[next] == NewFiber(arena, wip, elements, prior, i))
    && c.deletions == deletions + (if i < |prior| && !SameType(arena, elements, prior, i) then [prior[i]] else [])
  }

  /** ... and its edits to the fibers that already existed, field by field. */
  ghost predicate Edited(arena: Arena, wip: FiberId, elements: seq<Element>, prior: seq<FiberId>, i: nat,
                         prev: Option<FiberId>, next: FiberId, after: Arena)
    requires AllIn(arena, prior)
    requires forall k | k in arena :: k in after
  {
    && (forall k | k in arena :: Kept(arena[k], after[k]))
    && (forall k | k in arena ::
          after[k].effectTag
          == if i < |prior| && !SameType(arena, elements, prior, i) && k == prior[i] then Deletion else arena[k].effectTag)
    && (forall k | k in arena ::
          after[k].child == if i == 0 && k == wip then (if i < |elements| then Some(next) else None) else arena[k].child)
    && (forall k | k in arena ::
          after[k].sibling == if prev == Some(k) && i < |elements| then Some(next) else arena[k].sibling)
  }

  /** The arena with the fiber for element i added under the id `next`, if that element exists. */
  function AddFiber(arena: Arena, wip: FiberId, elements: seq<Element>, prior: seq<FiberId>, i: nat, next: FiberId): (a: Arena)
    requires AllIn(arena, prior) && Bounded(arena, next)
    ensures forall k :: k in a <==> k in arena || (i < |elements| && k == next)
    ensures forall k | k in arena :: a[k] == arena[k]
    ensures i < |elements| ==> a[next] == NewFiber(arena, wip, elements, prior, i)
  {
    if i < |elements| then arena[next := NewFiber(arena, wip, elements, prior, i)] else arena
  }

  /** `oldFiber.effectTag = "DELETION"` on the victim, if there is one. */
  function MarkDeleted(a: Arena, victim: Option<FiberId>): (b: Arena)
    requires victim.Some? ==> victim.value in a
    ensures forall k :: k in b <==> k in a
    ensures forall k | k in a :: b[k] == if victim == Some(k) then a[k].(effectTag := Deletion) else a[k]
  {
    if victim.Some? then a[victim.value := a[victim.value].(effectTag := Deletion)] else a
  }

  /** `wipFiber.child = newFiber`. */
  function SetChild(a: Arena, id: FiberId, link: Option<FiberId>): (b: Arena)
    requires id in a
    ensures forall k :: k in b <==> k in a
    ensures forall k | k in a :: b[k] == if k == id then a[k].(child := link) else a[k]
  {
    a[id := a[id].(child := link)]
  }

  /** `prevSibling.sibling = newFiber`. */
  function SetSibling(a: Arena, id: FiberId, link: Option<FiberId>): (b: Arena)
    requires id in a
    ensures forall k :: k in b <==> k in a
    ensures forall k | k in a :: b[k] == if k == id then a[k].(sibling := link) else a[k]
  {
    a[id := a[id].(sibling := link)]
  }

  /** The old fiber at index i when it has no same-type element there. */
  function Victim(arena: Arena, elements: seq<Element>, prior: seq<FiberId>, i: nat): Option<FiberId>
    requires AllIn(arena, prior)
  {
    if i < |prior| && !SameType(arena, elements, prior, i) then Some(prior[i]) else None
  }

  /** One iteration of the while loop (index.js:141-181). With `guarded` the link at
      line 177 is only written when a new fiber exists. */
  function Step(arena: Arena, wip: FiberId, elements: seq<Element>, prior: seq<FiberId>, i: nat,
                prev: Option<FiberId>, deletions: seq<FiberId>, next: FiberId, guarded: bool): (r: Result<Cursor, Fault>)
    requires Entry(arena, wip, elements, prior, i, prev, next)
    requires i < |elements| || i < |prior|
    ensures r.Failure? <==> !guarded && |elements| < i
    ensures r.Failure? ==> r.error == NullSibling
  {
    var created := i < |elements|;
    var newId: Option<FiberId> := if created then Some(next) else None;
    var next1 := if created then next + 1 else next;
    var victim := Victim(arena, elements, prior, i);
    var arena2 := MarkDeleted(AddFiber(arena, wip, elements, prior, i, next), victim);
    var deletions2 := if victim.Some? then deletions + [victim.value] else deletions;
    if i == 0 then
      Success(Cursor(SetChild(arena2, wip, newId), newId, deletions2, next1))
    else if guarded && !created then
      Success(Cursor(arena2, newId, deletions2, next1))
    else if prev.None? then
      Failure(NullSibling)
    else
      Success(Cursor(SetSibling(arena2, prev.value, newId), newId, deletions2, next1))
  }

  lemma StepSpec(arena: Arena, wip: FiberId, elements: seq<Element>, prior: seq<FiberId>, i: nat,
                 prev: Option<FiberId>, deletions: seq<FiberId>, next: FiberId, guarded: bool)
    requires Entry(arena, wip, elements, prior, i, prev, next)
    requires i < |elements| || i < |prior|
    requires Step(arena, wip, elements, prior, i, prev, deletions, next, guarded).Success?
    ensures Stepped(arena, wip, elements, prior, i, prev, deletions, next,
                    Step(arena, wip, elements, prior, i, prev, deletions, next, guarded).value)
  {
    var c := Step(arena, wip, elements, prior, i, prev, deletions, next, guarded).value;
    var arena2 := MarkDeleted(AddFiber(arena, wip, elements, prior, i, next), Victim(arena, elements, prior, i));
    assert forall k :: k in c.arena <==> k in arena2;
    if i < |elements| {
      assert c.arena[next] == arena2[next];
    }
  }

  /** The loop's entry condition holds again at index i + 1. */
  lemma StepEntry(arena: Arena, wip: FiberId, elements: seq<Element>, prior: seq<FiberId>, i: nat,
                  prev: Option<FiberId>, deletions: seq<FiberId>, next: FiberId, guarded: bool)
    requires Entry(arena, wip, elements, prior, i, prev, next)
    requires i < |elements| || i < |prior|
    requires Step(arena, wip, elements, prior, i, prev, deletions, next, guarded).Success?
    ensures Entry(Step(arena, wip, elements, prior, i, prev, deletions, next, guarded).value.arena, wip, elements, prior, i + 1,
                  Step(arena, wip, elements, prior, i, prev, deletions, next, guarded).value.prev,
                  Step(arena, wip, elements, prior, i, prev, deletions, next, guarded).value.next)
  {
    StepSpec(arena, wip, elements, prior, i, prev, deletions, next, guarded);
    var c := Step(arena, wip, elements, prior, i, prev, deletions, next, guarded).value;
    assert AllIn(c.arena, prior);
  }

  /** What the iteration does to the fibers that already existed. */
  lemma StepEdits(arena: Arena, wip: FiberId, elements: seq<Element>, prior: seq<FiberId>, i: nat,
                  prev: Option<FiberId>, deletions: seq<FiberId>, next: FiberId, guarded: bool)
    requires Entry(arena, wip, elements, prior, i, prev, next)
    requires i < |elements| || i < |prior|
    requires Step(arena, wip, elements, prior, i, prev, deletions, next, guarded).Success?
    ensures forall k | k in arena :: k in Step(arena, wip, elements, prior, i, prev, deletions, next, guarded).value.arena
    ensures Edited(arena, wip, elements, prior, i, prev, next,
                   Step(arena, wip, elements, prior, i, prev, deletions, next, guarded).value.arena)
  {
    var c := Step(arena, wip, elements, prior, i, prev, deletions, next, guarded).value;
    assert forall k | k in arena ::
      k in c.arena && c.arena[k] == arena[k].(effectTag := if Victim(arena, elements, prior, i) == Some(k) then Deletion else arena[k].effectTag,
                child := if i == 0 && k == wip then (if i < |elements| then Some(next) else None) else arena[k].child,
                sibling := if prev == Some(k) && i < |elements| then Some(next) else arena[k].sibling);
  }

  /** The while loop of reconcileChildren from index i on (index.js:140-182). */
  function Lockstep(arena: Arena, wip: FiberId, elements: seq<Element>, prior: seq<FiberId>, i: nat,
                    prev: Option<FiberId>, deletions: seq<FiberId>, next: FiberId, guarded: bool): (r: Result<Reconciled, Fault>)
    requires Entry(arena, wip, elements, prior, i, prev, next)
    ensures r.Failure? <==> !guarded && i < |prior| && |elements| + 1 < |prior|
    ensures r.Failure? ==> r.error == NullSibling
    decreases |elements| + |prior| - i, 2
  {
    if i >= |elements| && i >= |prior| then Success(Reconciled(arena, deletions, next))
    else Iterate(arena, wip, elements, prior, i, prev, deletions, next, guarded)
  }

  /** Passes index i to the loop body; a separate layer so that unfolding `Lockstep`
      does not also unfold the body. */
  function Iterate(arena: Arena, wip: FiberId, elements: seq<Element>, prior: seq<FiberId>, i: nat,
                prev: Option<FiberId>, deletions: seq<FiberId>, next: FiberId, guarded: bool): (r: Result<Reconciled, Fault>)
    requires Entry(arena, wip, elements, prior, i, prev, next)
    requires i < |elements| || i < |prior|
    ensures r.Failure? <==> !guarded && i < |prior| && |elements| + 1 < |prior|
    ensures r.Failure? ==> r.error == NullSibling
    decreases |elements| + |prior| - i, 1
  {
    Turn(arena, wip, elements, prior, i, prev, deletions, next, guarded)
  }

  /** The body of the loop at index i, followed by the rest of the loop. */
  function Turn(arena: Arena, wip: FiberId, elements: seq<Element>, prior: seq<FiberId>, i: nat,
                prev: Option<FiberId>, deletions: seq<FiberId>, next: FiberId, guarded: bool): (r: Result<Reconciled, Fault>)
    requires Entry(arena, wip, elements, prior, i, prev, next)
    requires i < |elements| || i < |prior|
    ensures r.Failure? <==> !guarded && i < |prior| && |elements| + 1 < |prior|
    ensures r.Failure? ==> r.error == NullSibling
    decreases |elements| + |prior| - i, 0
  {
    match Step(arena, wip, elements, prior, i, prev, deletions, next, guarded)
    case Failure(e) => Failure(e)
    case Success(c) =>
      StepEntry(arena, wip, elements, prior, i, prev, deletions, next, guarded);
      Lockstep(c.arena, wip, elements, prior, i + 1, c.prev, c.deletions, c.next, guarded)
  }

  /** Changing fibers other than in type and DOM node does not change the diff's view
      of the old chain. */
  lemma {:induction false} UnmatchedFrame(a: Arena, b: Arena, elements: seq<Element>, prior: seq<FiberId>, i: nat)
    requires AllIn(a, prior) && AllIn(b, prior)
    requires forall j | 0 <= j < |prior| :: b[prior[j]].ftype == a[prior[j]].ftype
    ensures Unmatched(b, elements, prior, i) == Unmatched(a, elements, prior, i)
    decreases |prior| - i
  {
    if i < |prior| {
      UnmatchedFrame(a, b, elements, prior, i + 1);
    }
  }

  function NewCount(elements: seq<Element>, i: nat): nat {
    if i < |elements| then |elements| - i else 0
  }

  /** The fiber that the loop started at index i with `next` leaves under the id `id`:
      the one made for element i + (id - next), linked to the fiber after it. */
  function Wired(arena: Arena, wip: FiberId, elements: seq<Element>, prior: seq<FiberId>, i: nat, next: FiberId, id: FiberId): Fiber
    requires AllIn(arena, prior) && next <= id < next + NewCount(elements, i)
  {
    var j := i + (id - next);
    NewFiber(arena, wip, elements, prior, j).(sibling := if j + 1 < |elements| then Some(id + 1) else None)
  }

  /** One turn of the loop, as the recursion sees it: the cursor it hands on. */
  lemma Advance(arena: Arena, wip: FiberId, elements: seq<Element>, prior: seq<FiberId>, i: nat,
                prev: Option<FiberId>, deletions: seq<FiberId>, next: FiberId, guarded: bool) returns (c: Cursor)
    requires Entry(arena, wip, elements, prior, i, prev, next)
    requires i < |elements| || i < |prior|
    requires Lockstep(arena, wip, elements, prior, i, prev, deletions, next, guarded).Success?
    ensures Stepped(arena, wip, elements, prior, i, prev, deletions, next, c)
    ensures (forall k | k in arena :: k in c.arena) && Edited(arena, wip, elements, prior, i, prev, next, c.arena)
    ensures Entry(c.arena, wip, elements, prior, i + 1, c.prev, c.next)
    ensures Lockstep(arena, wip, elements, prior, i, prev, deletions, next, guarded)
            == Lockstep(c.arena, wip, elements, prior, i + 1, c.prev, c.deletions, c.next, guarded)
    ensures forall j | 0 <= j < |prior| :: c.arena[prior[j]].ftype == arena[prior[j]].ftype
  {
    c := Step(arena, wip, elements, prior, i, prev, deletions, next, guarded).value;
    assert Lockstep(arena, wip, elements, prior, i, prev, deletions, next, guarded)
        == Iterate(arena, wip, elements, prior, i, prev, deletions, next, guarded)
        == Turn(arena, wip, elements, prior, i, prev, deletions, next, guarded);
    StepSpec(arena, wip, elements, prior, i, prev, deletions, next, guarded);
    StepEntry(arena, wip, elements, prior, i, prev, deletions, next, guarded);
    StepEdits(arena, wip, elements, prior, i, prev, deletions, next, guarded);
  }

  lemma ConcatAssoc<T>(a: seq<T>, b: seq<T>, c: seq<T>)
    ensures (a + b) + c == a + (b + c)
  {
  }

  /** Past the end of both lists the loop stops. */
  lemma Done(arena: Arena, wip: FiberId, elements: seq<Element>, prior: seq<FiberId>, i: nat,
             prev: Option<FiberId>, deletions: seq<FiberId>, next: FiberId, guarded: bool)
    requires Entry(arena, wip, elements, prior, i, prev, next)
    requires i >= |elements| && i >= |prior|
    ensures Lockstep(arena, wip, elements, prior, i, prev, deletions, next, guarded)
            == Success(Reconciled(arena, deletions, next))
    ensures Unmatched(arena, elements, prior, i) == [] && NewCount(elements, i) == 0
  {
  }

  /** Every id the diff consults or deletes is an old one. */
  lemma {:induction false} UnmatchedIn(arena: Arena, elements: seq<Element>, prior: seq<FiberId>, i: nat)
    requires AllIn(arena, prior)
    ensures forall k | k in Unmatched(arena, elements, prior, i) :: k in prior[i..]
    decreases |prior| - i
  {
    if i < |prior| {
      UnmatchedIn(arena, elements, prior, i + 1);
    }
  }

  /** The loop hands out one id per element from index i on ... */
  lemma {:induction false} LockstepIds(arena: Arena, wip: FiberId, elements: seq<Element>, prior: seq<FiberId>, i: nat,
                                       prev: Option<FiberId>, deletions: seq<FiberId>, next: FiberId, guarded: bool)
    requires Entry(arena, wip, elements, prior, i, prev, next)
    requires Lockstep(arena, wip, elements, prior, i, prev, deletions, next, guarded).Success?
    ensures var out := Lockstep(arena, wip, elements, prior, i, prev, deletions, next, guarded).value;
            && out.next == next + NewCount(elements, i)
            && (forall k :: k in out.arena <==> k in arena || next <= k < out.next)
    decreases |elements| + |prior| - i, 1
  {
    if i < |elements| || i < |prior| {
      TurnIds(arena, wip, elements, prior, i, prev, deletions, next, guarded);
    } else {
      Done(arena, wip, elements, prior, i, prev, deletions, next, guarded);
    }
  }

  lemma {:induction false} TurnIds(arena: Arena, wip: FiberId, elements: seq<Element>, prior: seq<FiberId>, i: nat,
                                   prev: Option<FiberId>, deletions: seq<FiberId>, next: FiberId, guarded: bool)
    requires Entry(arena, wip, elements, prior, i, prev, next)
    requires i < |elements| || i < |prior|
    requires Lockstep(arena, wip, elements, prior, i, prev, deletions, next, guarded).Success?
    ensures var out := Lockstep(arena, wip, elements, prior, i, prev, deletions, next, guarded).value;
            && out.next == next + NewCount(elements, i)
            && (forall k :: k in out.arena <==> k in arena || next <= k < out.next)
    decreases |elements| + |prior| - i, 0
  {
    var c := Advance(arena, wip, elements, prior, i, prev, deletions, next, guarded);
    LockstepIds(c.arena, wip, elements, prior, i + 1, c.prev, c.deletions, c.next, guarded);
    assert forall k :: k in c.arena <==> k in arena || (i < |elements| && k == next);
  }

  /** ... and records the unmatched old fibers, in order, as deletions. */
  lemma {:induction false} LockstepDeletions(arena: Arena, wip: FiberId, elements: seq<Element>, prior: seq<FiberId>, i: nat,
                                             prev: Option<FiberId>, deletions: seq<FiberId>, next: FiberId, guarded: bool)
    requires Entry(arena, wip, elements, prior, i, prev, next)
    requires Lockstep(arena, wip, elements, prior, i, prev, deletions, next, guarded).Success?
    ensures Lockstep(arena, wip, elements, prior, i, prev, deletions, next, guarded).value.deletions
            == deletions + Unmatched(arena, elements, prior, i)
    decreases |elements| + |prior| - i, 1
  {
    if i < |elements| || i < |prior| {
      TurnDeletions(arena, wip, elements, prior, i, prev, deletions, next, guarded);
    } else {
      Done(arena, wip, elements, prior, i, prev, deletions, next, guarded);
    }
  }

  lemma {:induction false} TurnDeletions(arena: Arena, wip: FiberId, elements: seq<Element>, prior: seq<FiberId>, i: nat,
                                         prev: Option<FiberId>, deletions: seq<FiberId>, next: FiberId, guarded: bool)
    requires Entry(arena, wip, elements, prior, i, prev, next)
    requires i < |elements| || i < |prior|
    requires Lockstep(arena, wip, elements, prior, i, prev, deletions, next, guarded).Success?
    ensures Lockstep(arena, wip, elements, prior, i, prev, deletions, next, guarded).value.deletions
            == deletions + Unmatched(arena, elements, prior, i)
    decreases |elements| + |prior| - i, 0
  {
    var c := Advance(arena, wip, elements, prior, i, prev, deletions, next, guarded);
    LockstepDeletions(c.arena, wip, elements, prior, i + 1, c.prev, c.deletions, c.next, guarded);
    UnmatchedFrame(arena, c.arena, elements, prior, i + 1);
    var here := if i < |prior| && !SameType(arena, elements, prior, i) then [prior[i]] else [];
    assert Unmatched(arena, elements, prior, i) == here + Unmatched(arena, elements, prior, i + 1);
    ConcatAssoc(deletions, here, Unmatched(arena, elements, prior, i + 1));
  }

  /** Old fibers keep their type, props, node, parent, alternate and hooks. */
  lemma {:induction false} LockstepKept(arena: Arena, wip: FiberId, elements: seq<Element>, prior: seq<FiberId>, i: nat,
                                        prev: Option<FiberId>, deletions: seq<FiberId>, next: FiberId, guarded: bool)
    requires Entry(arena, wip, elements, prior, i, prev, next)
    requires Lockstep(arena, wip, elements, prior, i, prev, deletions, next, guarded).Success?
    ensures var after := Lockstep(arena, wip, elements, prior, i, prev, deletions, next, guarded).value.arena;
            forall k | k in arena :: k in after && Kept(arena[k], after[k])
    decreases |elements| + |prior| - i
  {
    if i < |elements| || i < |prior| {
      var c := Advance(arena, wip, elements, prior, i, prev, deletions, next, guarded);
      LockstepKept(c.arena, wip, elements, prior, i + 1, c.prev, c.deletions, c.next, guarded);
    }
  }

  /** Exactly the unmatched old fibers get marked for deletion. */
  lemma {:induction false} LockstepTags(arena: Arena, wip: FiberId, elements: seq<Element>, prior: seq<FiberId>, i: nat,
                                        prev: Option<FiberId>, deletions: seq<FiberId>, next: FiberId, guarded: bool)
    requires Entry(arena, wip, elements, prior, i, prev, next)
    requires Lockstep(arena, wip, elements, prior, i, prev, deletions, next, guarded).Success?
    ensures var after := Lockstep(arena, wip, elements, prior, i, prev, deletions, next, guarded).value.arena;
            forall k | k in arena ::
              k in after && after[k].effectTag == if k in Unmatched(arena, elements, prior, i) then Deletion else arena[k].effectTag
    decreases |elements| + |prior| - i
  {
    if i < |elements| || i < |prior| {
      var c := Advance(arena, wip, elements, prior, i, prev, deletions, next, guarded);
      LockstepTags(c.arena, wip, elements, prior, i + 1, c.prev, c.deletions, c.next, guarded);
      UnmatchedFrame(arena, c.arena, elements, prior, i + 1);
    }
  }

  /** Only `wipFiber.child` is written, at index 0. */
  lemma {:induction false} LockstepChild(arena: Arena, wip: FiberId, elements: seq<Element>, prior: seq<FiberId>, i: nat,
                                         prev: Option<FiberId>, deletions: seq<FiberId>, next: FiberId, guarded: bool)
    requires Entry(arena, wip, elements, prior, i, prev, next)
    requires Lockstep(arena, wip, elements, prior, i, prev, deletions, next, guarded).Success?
    ensures var after := Lockstep(arena, wip, elements, prior, i, prev, deletions, next, guarded).value.arena;
            forall k | k in arena ::
              k in after &&
              after[k].child
              == if i == 0 && k == wip && (0 < |elements| || 0 < |prior|) then (if 0 < |elements| then Some(next) else None)
                 else arena[k].child
    decreases |elements| + |prior| - i
  {
    if i < |elements| || i < |prior| {
      var c := Advance(arena, wip, elements, prior, i, prev, deletions, next, guarded);
      LockstepChild(c.arena, wip, elements, prior, i + 1, c.prev, c.deletions, c.next, guarded);
      var after := Lockstep(c.arena, wip, elements, prior, i + 1, c.prev, c.deletions, c.next, guarded).value.arena;
      forall k | k in arena
        ensures k in after && after[k].child == if i == 0 && k == wip then (if 0 < |elements| then Some(next) else None)
                                                else arena[k].child
      {
        assert k in c.arena && after[k].child == c.arena[k].child;
      }
    }
  }

  /** Of the old fibers only `prevSibling` gets a sibling link, to the first new fiber. */
  lemma {:induction false} LockstepSibling(arena: Arena, wip: FiberId, elements: seq<Element>, prior: seq<FiberId>, i: nat,
                                           prev: Option<FiberId>, deletions: seq<FiberId>, next: FiberId, guarded: bool)
    requires Entry(arena, wip, elements, prior, i, prev, next)
    requires Lockstep(arena, wip, elements, prior, i, prev, deletions, next, guarded).Success?
    ensures var after := Lockstep(arena, wip, elements, prior, i, prev, deletions, next, guarded).value.arena;
            forall k | k in arena ::
              k in after && after[k].sibling == if prev == Some(k) && i < |elements| then Some(next) else arena[k].sibling
    decreases |elements| + |prior| - i
  {
    if i < |elements| || i < |prior| {
      var c := Advance(arena, wip, elements, prior, i, prev, deletions, next, guarded);
      LockstepSibling(c.arena, wip, elements, prior, i + 1, c.prev, c.deletions, c.next, guarded);
      assert forall k | k in arena :: c.prev != Some(k);
    }
  }

  /** Two fibers that agree on every field are the same fiber. */
  lemma SameFiber(f: Fiber, g: Fiber)
    requires Kept(f, g) && f.effectTag == g.effectTag && f.child == g.child && f.sibling == g.sibling
    ensures f == g
  {
  }

  /** The fiber made for an element depends on the old fibers only through their types and DOM nodes. */
  lemma NewFiberFrame(a: Arena, b: Arena, wip: FiberId, elements: seq<Element>, prior: seq<FiberId>, j: nat)
    requires AllIn(a, prior) && AllIn(b, prior) && j < |elements|
    requires forall m | 0 <= m < |prior| :: b[prior[m]].ftype == a[prior[m]].ftype && b[prior[m]].dom == a[prior[m]].dom
    ensures NewFiber(b, wip, elements, prior, j) == NewFiber(a, wip, elements, prior, j)
  {
  }

  /** The loop creates, under consecutive ids, one fiber per element from index i on,
      each linked to the next. */
  lemma {:induction false} LockstepFresh(arena: Arena, wip: FiberId, elements: seq<Element>, prior: seq<FiberId>, i: nat,
                                         prev: Option<FiberId>, deletions: seq<FiberId>, next: FiberId, guarded: bool)
    requires Entry(arena, wip, elements, prior, i, prev, next)
    requires Lockstep(arena, wip, elements, prior, i, prev, deletions, next, guarded).Success?
    ensures var out := Lockstep(arena, wip, elements, prior, i, prev, deletions, next, guarded).value;
            forall id | next <= id < next + NewCount(elements, i) ::
              id in out.arena && out.arena[id] == Wired(arena, wip, elements, prior, i, next, id)
    decreases |elements| + |prior| - i, 2
  {
    if i < |elements| || i < |prior| {
      TurnFresh(arena, wip, elements, prior, i, prev, deletions, next, guarded);
    } else {
      Done(arena, wip, elements, prior, i, prev, deletions, next, guarded);
    }
  }

  lemma {:induction false} TurnFresh(arena: Arena, wip: FiberId, elements: seq<Element>, prior: seq<FiberId>, i: nat,
                                     prev: Option<FiberId>, deletions: seq<FiberId>, next: FiberId, guarded: bool)
    requires Entry(arena, wip, elements, prior, i, prev, next)
    requires i < |elements| || i < |prior|
    requires Lockstep(arena, wip, elements, prior, i, prev, deletions, next, guarded).Success?
    ensures var out := Lockstep(arena, wip, elements, prior, i, prev, deletions, next, guarded).value;
            forall id | next <= id < next + NewCount(elements, i) ::
              id in out.arena && out.arena[id] == Wired(arena, wip, elements, prior, i, next, id)
    decreases |elements| + |prior| - i, 1
  {
    var c := Advance(arena, wip, elements, prior, i, prev, deletions, next, guarded);
    if i < |elements| {
      var out := Lockstep(c.arena, wip, elements, prior, i + 1, c.prev, c.deletions, c.next, guarded).value;
      assert out == Lockstep(arena, wip, elements, prior, i, prev, deletions, next, guarded).value;
      FirstFresh(arena, wip, elements, prior, i, prev, deletions, next, guarded, c);
      assert forall m | 0 <= m < |prior| :: Kept(arena[prior[m]], c.arena[prior[m]]);
      LaterFresh(arena, wip, elements, prior, i, prev, deletions, next, guarded, c);
    }
  }

  /** The fibers made after index i are those the rest of the loop makes. */
  lemma LaterFresh(arena: Arena, wip: FiberId, elements: seq<Element>, prior: seq<FiberId>, i: nat,
                   prev: Option<FiberId>, deletions: seq<FiberId>, next: FiberId, guarded: bool, c: Cursor)
    requires AllIn(arena, prior) && i < |elements| && c.next == next + 1
    requires Entry(c.arena, wip, elements, prior, i + 1, c.prev, c.next)
    requires forall m | 0 <= m < |prior| :: Kept(arena[prior[m]], c.arena[prior[m]])
    requires Lockstep(c.arena, wip, elements, prior, i + 1, c.prev, c.deletions, c.next, guarded).Success?
    ensures var out := Lockstep(c.arena, wip, elements, prior, i + 1, c.prev, c.deletions, c.next, guarded).value;
            forall id | next < id < next + NewCount(elements, i) ::
              id in out.arena && out.arena[id] == Wired(arena, wip, elements, prior, i, next, id)
    decreases |elements| + |prior| - i, 0
  {
    var out := Lockstep(c.arena, wip, elements, prior, i + 1, c.prev, c.deletions, c.next, guarded).value;
    LockstepFresh(c.arena, wip, elements, prior, i + 1, c.prev, c.deletions, c.next, guarded);
    forall id | next < id < next + NewCount(elements, i)
      ensures id in out.arena && out.arena[id] == Wired(arena, wip, elements, prior, i, next, id)
    {
      WiredFrame(arena, c.arena, wip, elements, prior, i, next, id);
    }
  }

  lemma WiredFrame(a: Arena, b: Arena, wip: FiberId, elements: seq<Element>, prior: seq<FiberId>, i: nat, next: FiberId, id: FiberId)
    requires AllIn(a, prior) && AllIn(b, prior)
    requires forall m | 0 <= m < |prior| :: Kept(a[prior[m]], b[prior[m]])
    requires next < id < next + NewCount(elements, i)
    ensures Wired(b, wip, elements, prior, i + 1, next + 1, id) == Wired(a, wip, elements, prior, i, next, id)
  {
    NewFiberFrame(a, b, wip, elements, prior, i + (id - next));
  }

  /** The fiber made at index i ends up linked to the one made at index i + 1. */
  lemma FirstFresh(arena: Arena, wip: FiberId, elements: seq<Element>, prior: seq<FiberId>, i: nat,
                   prev: Option<FiberId>, deletions: seq<FiberId>, next: FiberId, guarded: bool, c: Cursor)
    requires Entry(arena, wip, elements, prior, i, prev, next)
    requires i < |elements|
    requires Stepped(arena, wip, elements, prior, i, prev, deletions, next, c)
    requires Entry(c.arena, wip, elements, prior, i + 1, c.prev, c.next)
    requires Lockstep(c.arena, wip, elements, prior, i + 1, c.prev, c.deletions, c.next, guarded).Success?
    ensures var out := Lockstep(c.arena, wip, elements, prior, i + 1, c.prev, c.deletions, c.next, guarded).value;
            next in out.arena && out.arena[next] == Wired(arena, wip, elements, prior, i, next, next)
    decreases |elements| + |prior| - i, 0
  {
    var out := Lockstep(c.arena, wip, elements, prior, i + 1, c.prev, c.deletions, c.next, guarded).value;
    LockstepKept(c.arena, wip, elements, prior, i + 1, c.prev, c.deletions, c.next, guarded);
    LockstepTags(c.arena, wip, elements, prior, i + 1, c.prev, c.deletions, c.next, guarded);
    LockstepChild(c.arena, wip, elements, prior, i + 1, c.prev, c.deletions, c.next, guarded);
    LockstepSibling(c.arena, wip, elements, prior, i + 1, c.prev, c.deletions, c.next, guarded);
    UnmatchedIn(c.arena, elements, prior, i + 1);
    SameFiber(out.arena[next], Wired(arena, wip, elements, prior, i, next, next));
  }

  /** reconcileChildren(wipFiber, elements) started on a well-formed arena whose next
      free id is `bound`; `guarded` selects the corrected sibling link. */
  function Reconcile(arena: Arena, bound: FiberId, wip: FiberId, elements: seq<Element>,
                     deletions: seq<FiberId>, guarded: bool): (r: Result<Reconciled, Fault>)
    requires Wf(arena, bound) && wip in arena
    ensures r.Failure? <==> !guarded && |elements| + 2 <= |OldChildren(arena, bound, wip)|
    ensures r.Failure? ==> r.error == NullSibling
  {
    Lockstep(arena, wip, elements, OldChildren(arena, bound, wip), 0, None, deletions, bound, guarded)
  }

  /** reconcileChildren as written: it dereferences a null `prevSibling` once the old
      chain is two or more fibers longer than the element list. */
  function ReconcileChildren(arena: Arena, bound: FiberId, wip: FiberId, elements: seq<Element>,
                             deletions: seq<FiberId>): (r: Result<Reconciled, Fault>)
    requires Wf(arena, bound) && wip in arena
    ensures r.Failure? <==> |elements| + 2 <= |OldChildren(arena, bound, wip)|
    ensures r.Failure? ==> r.error == NullSibling
  {
    Reconcile(arena, bound, wip, elements, deletions, false)
  }

  /** reconcileChildren with line 177 guarded by `newFiber`: it never fails. */
  function ReconcileChildrenGuarded(arena: Arena, bound: FiberId, wip: FiberId, elements: seq<Element>,
                                    deletions: seq<FiberId>): (r: Result<Reconciled, Fault>)
    requires Wf(arena, bound) && wip in arena
    ensures r.Success?
  {
    Reconcile(arena, bound, wip, elements, deletions, true)
  }

  /** The new generation: fiber `bound + j` is made for element j, has the element's type
      and props, hangs under `wip` and links to the fiber for element j + 1. It reuses the
      old fiber at index j (node and alternate, tag UPDATE) exactly when the types match,
      and is otherwise a fresh PLACEMENT. */
  lemma ReconcileFibers(arena: Arena, bound: FiberId, wip: FiberId, elements: seq<Element>,
                        deletions: seq<FiberId>, guarded: bool)
    requires Wf(arena, bound) && wip in arena
    requires Reconcile(arena, bound, wip, elements, deletions, guarded).Success?
    ensures var out := Reconcile(arena, bound, wip, elements, deletions, guarded).value;
            var prior := OldChildren(arena, bound, wip);
            && out.next == bound + |elements|
            && (forall k :: k in out.arena <==> k in arena || bound <= k < out.next)
            && (forall id | bound <= id < out.next ::
                  && out.arena[id].ftype == elements[id - bound].etype
                  && out.arena[id].props == elements[id - bound].props
                  && out.arena[id].parent == Some(wip)
                  && out.arena[id].child.None?
                  && out.arena[id].sibling == (if id + 1 < out.next then Some(id + 1) else None)
                  && out.arena[id].hooks == []
                  && (if SameType(arena, elements, prior, id - bound)
                      then out.arena[id].effectTag == Update && out.arena[id].alternate == Some(prior[id - bound])
                           && out.arena[id].dom == arena[prior[id - bound]].dom
                      else out.arena[id].effectTag == Placement && out.arena[id].alternate.None?
                           && out.arena[id].dom.None?))
  {
    var prior := OldChildren(arena, bound, wip);
    LockstepIds(arena, wip, elements, prior, 0, None, deletions, bound, guarded);
    LockstepFresh(arena, wip, elements, prior, 0, None, deletions, bound, guarded);
  }

  /** What happens to the fibers that already existed: only effect tags and `wip.child`
      change, and exactly the old fibers without a same-type element are marked DELETION
      and appended, in chain order, to the deletion list. */
  lemma ReconcileEdits(arena: Arena, bound: FiberId, wip: FiberId, elements: seq<Element>,
                       deletions: seq<FiberId>, guarded: bool)
    requires Wf(arena, bound) && wip in arena
    requires Reconcile(arena, bound, wip, elements, deletions, guarded).Success?
    ensures var out := Reconcile(arena, bound, wip, elements, deletions, guarded).value;
            var prior := OldChildren(arena, bound, wip);
            && out.deletions == deletions + Unmatched(arena, elements, prior, 0)
            && (forall k | k in arena ::
                  && k in out.arena
                  && Kept(arena[k], out.arena[k])
                  && out.arena[k].sibling == arena[k].sibling
                  && out.arena[k].effectTag
                     == (if k in Unmatched(arena, elements, prior, 0) then Deletion else arena[k].effectTag)
                  && out.arena[k].child
                     == (if k == wip && 0 < |elements| then Some(bound)
                         else if k == wip && 0 < |prior| then None
                         else arena[k].child))
  {
    var prior := OldChildren(arena, bound, wip);
    LockstepDeletions(arena, wip, elements, prior, 0, None, deletions, bound, guarded);
    LockstepKept(arena, wip, elements, prior, 0, None, deletions, bound, guarded);
    LockstepTags(arena, wip, elements, prior, 0, None, deletions, bound, guarded);
    LockstepChild(arena, wip, elements, prior, 0, None, deletions, bound, guarded);
    LockstepSibling(arena, wip, elements, prior, 0, None, deletions, bound, guarded);
  }

  /** Reconciliation keeps the arena well formed: every link still points into the
      arena, parents and alternates to older fibers, children and siblings to younger. */
  lemma ReconcileWf(arena: Arena, bound: FiberId, wip: FiberId, elements: seq<Element>,
                    deletions: seq<FiberId>, guarded: bool)
    requires Wf(arena, bound) && wip in arena
    requires Reconcile(arena, bound, wip, elements, deletions, guarded).Success?
    ensures var out := Reconcile(arena, bound, wip, elements, deletions, guarded).value;
            Wf(out.arena, out.next)
  {
    var out := Reconcile(arena, bound, wip, elements, deletions, guarded).value;
    var prior := OldChildren(arena, bound, wip);
    ReconcileFibers(arena, bound, wip, elements, deletions, guarded);
    ReconcileEdits(arena, bound, wip, elements, deletions, guarded);
    forall id | id in out.arena
      ensures LinkedAt(out.arena, id)
    {
      if id in arena {
        assert LinkedAt(arena, id);
      } else {
        assert bound <= id < out.next;
        if SameType(arena, elements, prior, id - bound) {
          assert prior[id - bound] in arena;
        }
      }
    }
  }

  /** An old fiber is deleted exactly when the element at its index is missing or has
      another type, and only old fibers are deleted. */
  lemma {:induction false} UnmatchedExactly(arena: Arena, elements: seq<Element>, prior: seq<FiberId>, i: nat)
    requires AllIn(arena, prior)
    requires forall a, b | 0 <= a < b < |prior| :: prior[a] < prior[b]
    ensures forall k | k in Unmatched(arena, elements, prior, i) :: k in prior[i..]
    ensures forall j | i <= j < |prior| :: prior[j] in Unmatched(arena, elements, prior, i) <==> !SameType(arena, elements, prior, j)
    decreases |prior| - i
  {
    if i < |prior| {
      UnmatchedExactly(arena, elements, prior, i + 1);
    }
  }

  /** Where the as-written step succeeds, the guarded one takes the same step: the link
      it skips would have written null over a sibling that is already null. */
  lemma StepAgrees(arena: Arena, wip: FiberId, elements: seq<Element>, prior: seq<FiberId>, i: nat,
                   prev: Option<FiberId>, deletions: seq<FiberId>, next: FiberId)
    requires Entry(arena, wip, elements, prior, i, prev, next)
    requires i < |elements| || i < |prior|
    requires Step(arena, wip, elements, prior, i, prev, deletions, next, false).Success?
    ensures Step(arena, wip, elements, prior, i, prev, deletions, next, true)
            == Step(arena, wip, elements, prior, i, prev, deletions, next, false)
  {
    if i > 0 && i >= |elements| {
      var arena2 := MarkDeleted(AddFiber(arena, wip, elements, prior, i, next), Victim(arena, elements, prior, i));
      var p := prev.value;
      assert arena2[p].(sibling := None) == arena2[p];
      assert SetSibling(arena2, p, None) == arena2;
    }
  }

  /** The loop: wherever the as-written reconciliation succeeds, the guarded one gives
      the same result. */
  lemma {:induction false} LockstepAgrees(arena: Arena, wip: FiberId, elements: seq<Element>, prior: seq<FiberId>, i: nat,
                                          prev: Option<FiberId>, deletions: seq<FiberId>, next: FiberId)
    requires Entry(arena, wip, elements, prior, i, prev, next)
    requires Lockstep(arena, wip, elements, prior, i, prev, deletions, next, false).Success?
    ensures Lockstep(arena, wip, elements, prior, i, prev, deletions, next, true)
            == Lockstep(arena, wip, elements, prior, i, prev, deletions, next, false)
    decreases |elements| + |prior| - i
  {
    if i < |elements| || i < |prior| {
      Unfold(arena, wip, elements, prior, i, prev, deletions, next, false);
      StepAgrees(arena, wip, elements, prior, i, prev, deletions, next);
      Unfold(arena, wip, elements, prior, i, prev, deletions, next, true);
      var c := Step(arena, wip, elements, prior, i, prev, deletions, next, false).value;
      LockstepAgrees(c.arena, wip, elements, prior, i + 1, c.prev, c.deletions, c.next);
    }
  }

  /** Unfolding the loop by one index. */
  lemma Unfold(arena: Arena, wip: FiberId, elements: seq<Element>, prior: seq<FiberId>, i: nat,
               prev: Option<FiberId>, deletions: seq<FiberId>, next: FiberId, guarded: bool)
    requires Entry(arena, wip, elements, prior, i, prev, next)
    requires i < |elements| || i < |prior|
    requires Step(arena, wip, elements, prior, i, prev, deletions, next, guarded).Success?
    ensures var c := Step(arena, wip, elements, prior, i, prev, deletions, next, guarded).value;
            && Entry(c.arena, wip, elements, prior, i + 1, c.prev, c.next)
            && Lockstep(arena, wip, elements, prior, i, prev, deletions, next, guarded)
               == Lockstep(c.arena, wip, elements, prior, i + 1, c.prev, c.deletions, c.next, guarded)
  {
    StepEntry(arena, wip, elements, prior, i, prev, deletions, next, guarded);
    assert Lockstep(arena, wip, elements, prior, i, prev, deletions, next, guarded)
        == Iterate(arena, wip, elements, prior, i, prev, deletions, next, guarded)
        == Turn(arena, wip, elements, prior, i, prev, deletions, next, guarded);
  }

  /** The correction changes nothing where the original works. */
  lemma GuardedAgrees(arena: Arena, bound: FiberId, wip: FiberId, elements: seq<Element>, deletions: seq<FiberId>)
    requires Wf(arena, bound) && wip in arena
    requires ReconcileChildren(arena, bound, wip, elements, deletions).Success?
    ensures ReconcileChildrenGuarded(arena, bound, wip, elements, deletions)
            == ReconcileChildren(arena, bound, wip, elements, deletions)
  {
    LockstepAgrees(arena, wip, elements, OldChildren(arena, bound, wip), 0, None, deletions, bound);
  }

  /** A parent whose previous render had two children, re-rendered with none. */
  function TwoChildArena(): Arena {
    map[1 := Fiber(Tag("ul"), Props([], []), Some(0), None, Some(2), None, None, NoEffect, []),
        2 := Fiber(Tag("li"), Props([], []), Some(1), Some(1), None, Some(3), None, NoEffect, []),
        3 := Fiber(Tag("li"), Props([], []), Some(2), Some(1), None, None, None, NoEffect, []),
        4 := Fiber(Tag("ul"), Props([], []), Some(0), None, None, None, Some(1), Update, [])]
  }

  /** Dropping both children crashes the as-written loop at index 1, where it links a
      null `prevSibling`; the guarded loop deletes both old children. */
  lemma CrashOnShrink()
    ensures Wf(TwoChildArena(), 5) && 4 in TwoChildArena()
    ensures ReconcileChildren(TwoChildArena(), 5, 4, [], []) == Failure(NullSibling)
    ensures ReconcileChildrenGuarded(TwoChildArena(), 5, 4, [], []).value.deletions == [2, 3]
  {
    var arena := TwoChildArena();
    assert forall id | id in arena :: LinkedAt(arena, id);
    var prior := OldChildren(arena, 5, 4);
    assert prior == [2, 3];
    ReconcileEdits(arena, 5, 4, [], [], true);
    assert Unmatched(arena, [], prior, 2) == [];
    assert Unmatched(arena, [], prior, 0) == [2, 3];
  }
}

=== FILE: scheduler.dfy ===
/** The engine's global state and its entry points (index.js:1-66, 90-104, 185-198,
    277-289): render, the setter of a hook, performUnitOfWork and the time-sliced work
    loop that commits once the last unit is done. */
module Scheduler {
  import opened Wrappers
  import opened Elements
  import opened PropDiff
  import opened Fibers
  import opened Hooks
  import opened Reconcile
  import opened Commit
  import Traversal

  /** A function component, seen from outside: the initial values of the useState
      calls it makes, in order, and the element it returns given their states and its
      props. */
  datatype Component = Component(initials: seq<Value>, view: (seq<Value>, Props) -> Element)

  /** The function components by id (`fiber.type` when it is a function). */
  type App = nat -> Component

  /** Which commit and reconcile code runs: the code as written, or with the two
      defects recorded in the findings corrected. */
  datatype Build = AsWritten | Corrected

  /** The module-level variables (`nextUnitOfWork`, `workInProgressRoot`, `currentRoot`,
      `deletions`) with the arena they point into, the counters that hand out fresh
      fiber ids and host nodes, the host operations issued so far, and the TypeError
      that stopped the work loop, if one did. */
  datatype Runtime = Runtime(
    arena: Arena,
    next: FiberId,
    nodes: NodeId,
    nextUnit: Option<FiberId>,
    wipRoot: Option<FiberId>,
    currentRoot: Option<FiberId>,
    deletions: seq<FiberId>,
    log: seq<HostOp>,
    crashed: Option<Fault>)

  predicate Present(arena: Arena, link: Option<FiberId>) {
    link.None? || link.value in arena
  }

  /** Every host node a fiber holds has already been handed out: the node counter is
      past it, so a node createDom makes is never one a fiber already holds. */
  predicate NodesBelow(arena: Arena, nodes: NodeId) {
    forall k | k in arena && arena[k].dom.Some? :: arena[k].dom.value < nodes
  }

  /** Every fiber reference of the runtime names a fiber of a well-formed arena, and
      every node a fiber holds is below the node counter. */
  predicate Inv(rt: Runtime) {
    && Wf(rt.arena, rt.next)
    && NodesBelow(rt.arena, rt.nodes)
    && Present(rt.arena, rt.nextUnit)
    && Present(rt.arena, rt.wipRoot)
    && Present(rt.arena, rt.currentRoot)
    && forall i | 0 <= i < |rt.deletions| :: rt.deletions[i] in rt.arena
  }

  /** The state before anything runs (index.js:1-4). The page's own nodes, the
      containers among them, are the `pageNodes` nodes below the counter's start. */
  function Initial(pageNodes: NodeId): (rt: Runtime)
    ensures Inv(rt) && rt.nodes == pageNodes && rt.arena == map[]
    ensures rt.nextUnit.None? && rt.wipRoot.None? && rt.currentRoot.None? && rt.log == [] && rt.crashed.None?
  {
    Runtime(map[], 0, pageNodes, None, None, None, [], [], None)
  }

  /** Host operations that build nodes off-screen, as opposed to attaching or detaching
      them. */
  predicate Offscreen(op: HostOp) {
    op.CreateNode? || op.CreateText? || op.SetProps?
  }

  /** render(element, container): a new root fiber for the container, with the current
      root as its alternate, becomes the first unit of work. The container is a node
      that already exists. */
  function Render(rt: Runtime, element: Element, container: NodeId): (r: Runtime)
    requires Inv(rt) && container < rt.nodes
    ensures Inv(r)
    ensures r.wipRoot == Some(rt.next) && r.nextUnit == r.wipRoot && r.deletions == [] && r.next == rt.next + 1
    ensures rt.next in r.arena
    ensures r.arena[rt.next] == CreateFiber(Tag("3"), Props([], [element]), Some(container), None, rt.currentRoot, NoEffect)
    ensures forall k | k in rt.arena :: k in r.arena && r.arena[k] == rt.arena[k]
    ensures r.currentRoot == rt.currentRoot && r.log == rt.log && r.crashed == rt.crashed
  {
    var root := CreateFiber(Tag("3"), Props([], [element]), Some(container), None, rt.currentRoot, NoEffect);
    var arena := rt.arena[rt.next := root];
    AddRoot(rt.arena, rt.next, root);
    rt.(arena := arena, next := rt.next + 1, wipRoot := Some(rt.next), nextUnit := Some(rt.next), deletions := [])
  }

  /** setState(action) for hook `hookIndex` of `fiber`: the action is queued on the hook,
      always, then a new root copying the current root's props and node becomes the first unit
      of work. Before the first commit there is no current root and reading its props
      throws; the action stays queued. The fault goes to the caller of the setter, not
      to the work loop. */
  function SetState(rt: Runtime, fiber: FiberId, hookIndex: nat, action: Action): (r: (Runtime, Option<Fault>))
    requires Inv(rt) && fiber in rt.arena && hookIndex < |rt.arena[fiber].hooks|
    ensures Inv(r.0)
    ensures r.1.Some? <==> rt.currentRoot.None?
    ensures r.1.Some? ==> r.1 == Some(NoCurrentRoot)
    ensures fiber in r.0.arena && hookIndex < |r.0.arena[fiber].hooks|
    ensures r.0.arena[fiber].hooks[hookIndex].queue == rt.arena[fiber].hooks[hookIndex].queue + [action]
    ensures r.1.None? ==> rt.currentRoot.Some? && rt.next in r.0.arena
    ensures r.1.None? ==> r.0.wipRoot == Some(rt.next) && r.0.nextUnit == r.0.wipRoot && r.0.deletions == []
    ensures r.1.None? ==> var c := rt.currentRoot.value;
              r.0.arena[rt.next] == CreateFiber(Tag("3"), rt.arena[c].props, rt.arena[c].dom, None, Some(c), NoEffect)
    ensures r.0.currentRoot == rt.currentRoot && r.0.log == rt.log && r.0.crashed == rt.crashed && r.0.nodes == rt.nodes
    ensures r.0.arena[fiber] == rt.arena[fiber].(hooks := r.0.arena[fiber].hooks)
    ensures |r.0.arena[fiber].hooks| == |rt.arena[fiber].hooks|
    ensures forall j | 0 <= j < |rt.arena[fiber].hooks| && j != hookIndex :: r.0.arena[fiber].hooks[j] == rt.arena[fiber].hooks[j]
    ensures forall k | k in rt.arena && k != fiber :: k in r.0.arena && r.0.arena[k] == rt.arena[k]
    ensures forall k | k in r.0.arena :: k in rt.arena || (r.1.None? && k == rt.next)
    ensures r.1.Some? ==> r.0.wipRoot == rt.wipRoot && r.0.nextUnit == rt.nextUnit && r.0.deletions == rt.deletions && r.0.next == rt.next
    ensures r.1.None? ==> r.0.next == rt.next + 1
  {
    var queued := Enqueue(rt.arena, fiber, hookIndex, action);
    WithHooksLinked(rt.arena, fiber, queued[fiber].hooks);
    match rt.currentRoot
    case None => (rt.(arena := queued), Some(NoCurrentRoot))
    case Some(c) =>
      var root := CreateFiber(Tag("3"), queued[c].props, queued[c].dom, None, Some(c), NoEffect);
      var arena := queued[rt.next := root];
      AddRoot(queued, rt.next, root);
      (rt.(arena := arena, next := rt.next + 1, wipRoot := Some(rt.next), nextUnit := Some(rt.next), deletions := []), None)
  }

  /** What a unit's own work leaves for reconcileChildren: the arena, the host-node
      counter, the host operations issued, and the child elements. */
  datatype Prepared = Prepared(arena: Arena, nodes: NodeId, ops: seq<HostOp>, elements: seq<Element>)

  /** createDom(fiber): a text node for text elements, an element node otherwise, with
      the props set as a diff from no props. */
  function CreateDom(ftype: ElementType, props: Props, node: NodeId): (ops: seq<HostOp>)
    requires ftype.Tag?
    ensures |ops| == 2 && ops[1] == SetProps(node, UpdateDom([], props.attrs))
    ensures ops[0] == (if ftype == TextTag then CreateText(node) else CreateNode(node, ftype.name))
  {
    [if ftype == TextTag then CreateText(node) else CreateNode(node, ftype.name),
     SetProps(node, UpdateDom([], props.attrs))]
  }

  /** createDom makes a text node for TEXT_ELEMENT and an element node otherwise; the
      blank node then gets exactly the plain properties of its props and listeners for
      every event key, and nothing is cleared or unlistened. */
  lemma CreateDomSetsAll(ftype: ElementType, props: Props, node: NodeId)
    requires ftype.Tag? && DistinctKeys(props.attrs)
    ensures CreateDom(ftype, props, node)[0].CreateText? <==> ftype == TextTag
    ensures CreateDom(ftype, props, node)[0].node == node
    ensures CreateDom(ftype, props, node)[0].CreateNode? ==> CreateDom(ftype, props, node)[0].tag == ftype.name
    ensures CreateDom(ftype, props, node)[1].node == node
    ensures forall op | op in CreateDom(ftype, props, node)[1].ops :: op.Set? || op.Listen?
    ensures forall k | IsProperty(k) && Lookup(props.attrs, k).Some? ::
              && k in ApplyProps(map[], CreateDom(ftype, props, node)[1].ops)
              && ApplyProps(map[], CreateDom(ftype, props, node)[1].ops)[k] == Lookup(props.attrs, k).value
    ensures forall k | IsProperty(k) && Lookup(props.attrs, k).None? ::
              k !in ApplyProps(map[], CreateDom(ftype, props, node)[1].ops)
    ensures forall p | p in props.attrs && IsEvent(p.0) :: Listen(EventName(p.0), p.1) in CreateDom(ftype, props, node)[1].ops
  {
    var ops := UpdateDom([], props.attrs);
    assert Keys([]) == [];
    UpdateDomRealizes(map[], [], props.attrs);
    UpdateDomComplete([], props.attrs);
  }

  /** The states a function component's useState calls return: each resumes from the
      alternate's hook at the same position. */
  function HookStates(arena: Arena, fiber: FiberId, initials: seq<Value>): (states: seq<Value>)
    requires Linked(arena) && fiber in arena
    ensures Rendering(arena, fiber) && |states| == |initials|
    ensures forall j | 0 <= j < |initials| :: states[j] == Resumed(arena, fiber, j, initials[j])
  {
    LinkedRendering(arena, fiber);
    seq(|initials|, j requires 0 <= j < |initials| && Rendering(arena, fiber) => Resumed(arena, fiber, j, initials[j]))
  }

  /** updateFunctionComponent: the hooks are rebuilt by the component's useState calls
      and its single child is the element it returns. */
  function UpdateFunctionComponent(arena: Arena, bound: FiberId, nodes: NodeId, fiber: FiberId, comp: Component): (r: Prepared)
    requires Wf(arena, bound) && fiber in arena
    ensures Wf(r.arena, bound) && (forall k :: k in r.arena <==> k in arena)
    ensures r.nodes == nodes && r.ops == []
    ensures var states := HookStates(arena, fiber, comp.initials);
            && r.elements == [comp.view(states, arena[fiber].props)]
            && r.arena == WithHooks(arena, fiber, FreshHooks(states))
  {
    LinkedRendering(arena, fiber);
    var (states, hooked) := UseStates(arena, fiber, comp.initials);
    UseStatesAligned(arena, fiber, comp.initials);
    assert states == HookStates(arena, fiber, comp.initials);
    WithHooksLinked(arena, fiber, FreshHooks(states));
    Prepared(hooked, nodes, [], [comp.view(states, arena[fiber].props)])
  }

  /** updateHostComponent: a fiber without a node gets one from createDom; its children
      are the element's own children. */
  function UpdateHostComponent(arena: Arena, bound: FiberId, nodes: NodeId, fiber: FiberId): (r: Prepared)
    requires Wf(arena, bound) && fiber in arena && arena[fiber].ftype.Tag?
    ensures Wf(r.arena, bound) && (forall k :: k in r.arena <==> k in arena)
    ensures forall k | k in arena && k != fiber :: r.arena[k] == arena[k]
    ensures r.elements == arena[fiber].props.children
    ensures arena[fiber].dom.Some? ==> r.arena == arena && r.nodes == nodes && r.ops == []
    ensures arena[fiber].dom.None? ==>
              && r.arena[fiber] == arena[fiber].(dom := Some(nodes))
              && r.nodes == nodes + 1
              && r.ops == CreateDom(arena[fiber].ftype, arena[fiber].props, nodes)
  {
    var f := arena[fiber];
    if f.dom.Some? then Prepared(arena, nodes, [], f.props.children)
    else
      var placed := arena[fiber := f.(dom := Some(nodes))];
      assert forall k | k in placed :: LinkedAt(arena, k) && LinkedAt(placed, k);
      Prepared(placed, nodes + 1, CreateDom(f.ftype, f.props, nodes), f.props.children)
  }

  /** The fiber's own work: updateFunctionComponent or updateHostComponent. */
  function Prepare(rt: Runtime, app: App, fiber: FiberId): (r: Prepared)
    requires Inv(rt) && fiber in rt.arena
    ensures Wf(r.arena, rt.next) && (forall k :: k in r.arena <==> k in rt.arena)
    ensures forall op | op in r.ops :: Offscreen(op)
    ensures r.nodes >= rt.nodes && NodesBelow(r.arena, r.nodes)
  {
    var f := rt.arena[fiber];
    match f.ftype
    case Component(id) => UpdateFunctionComponent(rt.arena, rt.next, rt.nodes, fiber, app(id))
    case Tag(_) => UpdateHostComponent(rt.arena, rt.next, rt.nodes, fiber)
  }

  /** What a successful reconcileChildren keeps of the runtime invariant. */
  lemma ReconcileSafe(arena: Arena, bound: FiberId, wip: FiberId, elements: seq<Element>,
                      deletions: seq<FiberId>, guarded: bool)
    requires Wf(arena, bound) && wip in arena
    requires forall i | 0 <= i < |deletions| :: deletions[i] in arena
    requires Reconcile.Reconcile(arena, bound, wip, elements, deletions, guarded).Success?
    ensures var out := Reconcile.Reconcile(arena, bound, wip, elements, deletions, guarded).value;
            && Wf(out.arena, out.next) && bound <= out.next
            && (forall k | k in arena :: k in out.arena)
            && (forall i | 0 <= i < |out.deletions| :: out.deletions[i] in out.arena)
  {
    var out := Reconcile.Reconcile(arena, bound, wip, elements, deletions, guarded).value;
    var prior := OldChildren(arena, bound, wip);
    ReconcileWf(arena, bound, wip, elements, deletions, guarded);
    ReconcileFibers(arena, bound, wip, elements, deletions, guarded);
    ReconcileEdits(arena, bound, wip, elements, deletions, guarded);
    UnmatchedIn(arena, elements, prior, 0);
    var extra := Unmatched(arena, elements, prior, 0);
    forall i | 0 <= i < |out.deletions|
      ensures out.deletions[i] in out.arena
    {
      if i >= |deletions| {
        assert out.deletions[i] == extra[i - |deletions|];
        assert extra[i - |deletions|] in extra;
      }
    }
  }

  /** reconcileChildren hands out no node: a new fiber holds the node of the old
      fiber it updates, or none. */
  lemma ReconcileNodes(arena: Arena, bound: FiberId, wip: FiberId, elements: seq<Element>,
                       deletions: seq<FiberId>, guarded: bool, nodes: NodeId)
    requires Wf(arena, bound) && wip in arena && NodesBelow(arena, nodes)
    requires Reconcile.Reconcile(arena, bound, wip, elements, deletions, guarded).Success?
    ensures NodesBelow(Reconcile.Reconcile(arena, bound, wip, elements, deletions, guarded).value.arena, nodes)
  {
    var out := Reconcile.Reconcile(arena, bound, wip, elements, deletions, guarded).value;
    var prior := OldChildren(arena, bound, wip);
    forall k | k in out.arena && out.arena[k].dom.Some?
      ensures out.arena[k].dom.value < nodes
    {
      if k in arena {
        ReconcileEdits(arena, bound, wip, elements, deletions, guarded);
        assert Kept(arena[k], out.arena[k]);
      } else {
        ReconcileFibers(arena, bound, wip, elements, deletions, guarded);
        assert bound <= k < out.next;
        var i := k - bound;
        if SameType(arena, elements, prior, i) {
          assert out.arena[k].dom == arena[prior[i]].dom;
        }
      }
    }
  }

  /** The log only grows, and what is added builds nodes off-screen. */
  predicate Grows(before: seq<HostOp>, after: seq<HostOp>) {
    && |before| <= |after| && after[..|before|] == before
    && forall i | |before| <= i < |after| :: Offscreen(after[i])
  }

  lemma GrowsTrans(a: seq<HostOp>, b: seq<HostOp>, c: seq<HostOp>)
    requires Grows(a, b) && Grows(b, c)
    ensures Grows(a, c)
  {
    assert c[..|a|] == c[..|b|][..|a|];
    forall i | |a| <= i < |c|
      ensures Offscreen(c[i])
    {
      if i < |b| {
        assert c[i] == c[..|b|][i];
      }
    }
  }

  /** performUnitOfWork(fiber): the fiber's own work, reconcileChildren on its child
      elements, then the next unit chosen by the traversal. A TypeError in
      reconcileChildren stops the work loop. */
  function PerformUnitOfWork(rt: Runtime, app: App, build: Build, fiber: FiberId): (r: Runtime)
    requires Inv(rt) && fiber in rt.arena
    ensures Inv(r)
    ensures r.wipRoot == rt.wipRoot && r.currentRoot == rt.currentRoot
    ensures Grows(rt.log, r.log)
    ensures r.crashed.Some? ==> rt.crashed.Some? || (build.AsWritten? && r.crashed == Some(NullSibling))
    ensures rt.crashed.Some? ==> r.crashed == rt.crashed
    ensures var p := Prepare(rt, app, fiber);
            && r.log == rt.log + p.ops && r.nodes == p.nodes
            && (Reconcile.Reconcile(p.arena, rt.next, fiber, p.elements, rt.deletions, build.Corrected?).Failure? ==>
                  r.crashed.Some? && r.nextUnit == rt.nextUnit && r.arena == p.arena)
    ensures var p := Prepare(rt, app, fiber);
            var out := Reconcile.Reconcile(p.arena, rt.next, fiber, p.elements, rt.deletions, build.Corrected?);
            out.Success? ==>
              && r.arena == out.value.arena && r.next == out.value.next && r.deletions == out.value.deletions
              && r.crashed == rt.crashed && fiber in r.arena
              && r.nextUnit == Traversal.NextUnit(r.arena, fiber)
  {
    var p := Prepare(rt, app, fiber);
    var prepared := rt.(arena := p.arena, nodes := p.nodes, log := rt.log + p.ops);
    assert prepared.log[..|rt.log|] == rt.log;
    match Reconcile.Reconcile(p.arena, rt.next, fiber, p.elements, rt.deletions, build.Corrected?)
    case Failure(e) => prepared.(crashed := if rt.crashed.Some? then rt.crashed else Some(e))
    case Success(out) =>
      ReconcileSafe(p.arena, rt.next, fiber, p.elements, rt.deletions, build.Corrected?);
      ReconcileNodes(p.arena, rt.next, fiber, p.elements, rt.deletions, build.Corrected?, p.nodes);
      prepared.(arena := out.arena, next := out.next, deletions := out.deletions,
                nextUnit := Traversal.NextUnit(out.arena, fiber))
  }

  /** reconcileChildren with child elements makes the first new fiber the
      work-in-progress fiber's child, so it is the next unit the traversal picks. */
  lemma ReconcileDescends(arena: Arena, bound: FiberId, wip: FiberId, elements: seq<Element>,
                          deletions: seq<FiberId>, guarded: bool)
    requires Wf(arena, bound) && wip in arena && |elements| > 0
    requires Reconcile.Reconcile(arena, bound, wip, elements, deletions, guarded).Success?
    ensures var out := Reconcile.Reconcile(arena, bound, wip, elements, deletions, guarded).value;
            && Wf(out.arena, out.next) && wip in out.arena && bound in out.arena
            && Traversal.NextUnit(out.arena, wip) == Some(bound)
            && out.arena[bound].parent == Some(wip)
            && out.arena[bound].ftype == elements[0].etype && out.arena[bound].props == elements[0].props
  {
    var out := Reconcile.Reconcile(arena, bound, wip, elements, deletions, guarded).value;
    Reconcile.ReconcileWf(arena, bound, wip, elements, deletions, guarded);
    assert bound in out.arena && out.arena[bound].parent == Some(wip)
           && out.arena[bound].ftype == elements[0].etype && out.arena[bound].props == elements[0].props by {
      Reconcile.ReconcileFibers(arena, bound, wip, elements, deletions, guarded);
    }
    assert wip in out.arena && out.arena[wip].child == Some(bound) by {
      Reconcile.ReconcileEdits(arena, bound, wip, elements, deletions, guarded);
    }
  }

  /** A unit whose fiber has child elements moves down: the next unit is the fiber's
      first new child, made for the first element and hung under the fiber. */
  lemma UnitDescends(rt: Runtime, app: App, build: Build, fiber: FiberId)
    requires Inv(rt) && fiber in rt.arena && rt.crashed.None?
    requires PerformUnitOfWork(rt, app, build, fiber).crashed.None?
    requires |Prepare(rt, app, fiber).elements| > 0
    ensures var r := PerformUnitOfWork(rt, app, build, fiber);
            var e := Prepare(rt, app, fiber).elements[0];
            && r.nextUnit == Some(rt.next) && rt.next in r.arena
            && r.arena[rt.next].parent == Some(fiber)
            && r.arena[rt.next].ftype == e.etype && r.arena[rt.next].props == e.props
  {
    var p := Prepare(rt, app, fiber);
    ReconcileDescends(p.arena, rt.next, fiber, p.elements, rt.deletions, build.Corrected?);
  }

  /** The loop at index.js:40-43 around any unit of work `step`. `budget` is how many
      more times `timeRemaining()` will report at least a millisecond; the first unit
      runs regardless. */
  function Run(rt: Runtime, step: Runtime -> Runtime, budget: nat): Runtime
    decreases budget
  {
    if rt.crashed.Some? || rt.nextUnit.None? then rt
    else if budget == 0 then step(rt)
    else Run(step(rt), step, budget - 1)
  }

  /** What rendering may do to the runtime: leave the roots alone, only add off-screen
      host operations, and, with the corrected reconciler, not throw. */
  predicate Renders(before: Runtime, after: Runtime, build: Build) {
    && after.wipRoot == before.wipRoot && after.currentRoot == before.currentRoot
    && Grows(before.log, after.log)
    && (before.crashed.None? && build.Corrected? ==> after.crashed.None?)
  }

  lemma RendersTrans(a: Runtime, b: Runtime, c: Runtime, build: Build)
    requires Renders(a, b, build) && Renders(b, c, build)
    ensures Renders(a, c, build)
  {
    GrowsTrans(a.log, b.log, c.log);
  }

  /** Each unit of work keeps the invariant and only renders. */
  ghost predicate StepRenders(step: Runtime -> Runtime, build: Build) {
    forall s | Inv(s) && s.crashed.None? && s.nextUnit.Some? :: Inv(step(s)) && Renders(s, step(s), build)
  }

  lemma {:induction false} RunRenders(rt: Runtime, step: Runtime -> Runtime, build: Build, budget: nat)
    requires Inv(rt) && StepRenders(step, build)
    ensures Inv(Run(rt, step, budget)) && Renders(rt, Run(rt, step, budget), build)
    decreases budget
  {
    if rt.crashed.None? && rt.nextUnit.Some? {
      if budget > 0 {
        RunRenders(step(rt), step, build, budget - 1);
        RendersTrans(rt, step(rt), Run(step(rt), step, budget - 1), build);
      }
    } else {
      assert Grows(rt.log, rt.log) by { assert rt.log[..|rt.log|] == rt.log; }
    }
  }

  /** Splitting the rendering between two slices does the same work as one longer
      slice: the deadline decides where rendering pauses, not what it does. */
  lemma {:induction false} RunSplit(rt: Runtime, step: Runtime -> Runtime, first: nat, second: nat)
    ensures Run(Run(rt, step, first), step, second) == Run(rt, step, first + 1 + second)
    decreases first
  {
    if rt.crashed.None? && rt.nextUnit.Some? && first > 0 {
      RunSplit(step(rt), step, first - 1, second);
    }
  }

  /** performUnitOfWork on the next unit. */
  function Step(app: App, build: Build): Runtime -> Runtime {
    rt => if Inv(rt) && rt.nextUnit.Some? then PerformUnitOfWork(rt, app, build, rt.nextUnit.value) else rt
  }

  lemma UnitRenders(app: App, build: Build)
    ensures StepRenders(Step(app, build), build)
  {
    var step := Step(app, build);
    forall s | Inv(s) && s.crashed.None? && s.nextUnit.Some?
      ensures Inv(step(s)) && Renders(s, step(s), build)
    {
      assert step(s) == PerformUnitOfWork(s, app, build, s.nextUnit.value);
    }
  }

  /** The rendering loop of workLoop: performUnitOfWork until the deadline or the last
      unit. Rendering never touches the roots, only adds off-screen host operations,
      and with the corrected reconciler never throws. */
  function Loop(rt: Runtime, app: App, build: Build, budget: nat): (r: Runtime)
    requires Inv(rt)
    ensures Inv(r)
    ensures rt.crashed.Some? ==> r == rt
    ensures r.wipRoot == rt.wipRoot && r.currentRoot == rt.currentRoot
    ensures Grows(rt.log, r.log)
    ensures rt.crashed.None? && build.Corrected? ==> r.crashed.None?
    ensures rt.nextUnit.None? ==> r == rt
    ensures rt.crashed.None? && rt.nextUnit.Some? && budget == 0 ==>
              r == PerformUnitOfWork(rt, app, build, rt.nextUnit.value)
  {
    UnitRenders(app, build);
    RunRenders(rt, Step(app, build), build, budget);
    Run(rt, Step(app, build), budget)
  }

  /** Two slices of rendering do the same work as one longer slice. */
  lemma LoopSplit(rt: Runtime, app: App, build: Build, first: nat, second: nat)
    requires Inv(rt)
    ensures Loop(Loop(rt, app, build, first), app, build, second) == Loop(rt, app, build, first + 1 + second)
  {
    RunSplit(rt, Step(app, build), first, second);
  }

  /** commitRoot: the deletion pass and the new tree's effects are issued; the work in
      progress becomes the current root. A fault stops the work loop with the root
      switch not made. */
  function CommitRootStep(rt: Runtime, build: Build): (r: Runtime)
    requires Inv(rt) && rt.wipRoot.Some? && rt.crashed.None?
    ensures Inv(r) && LinkedAt(rt.arena, rt.wipRoot.value)
    ensures r.arena == rt.arena && r.nextUnit == rt.nextUnit && r.deletions == rt.deletions
    ensures r.next == rt.next && r.nodes == rt.nodes
    ensures |rt.log| <= |r.log| && r.log[..|rt.log|] == rt.log
    ensures build.AsWritten? ==> r.log == rt.log + CommitRoot(rt.arena, rt.next, rt.wipRoot.value, rt.deletions).ops
    ensures build.Corrected? ==> r.log == rt.log + CommitRootFixed(rt.arena, rt.next, rt.wipRoot.value, rt.deletions).ops
    ensures build.Corrected? && r.crashed.None? ==>
              CommitShape(rt.arena, rt.next, rt.wipRoot.value, rt.deletions, rt.log, r.log)
    ensures r.crashed == (if build.Corrected? then CommitRootFixed(rt.arena, rt.next, rt.wipRoot.value, rt.deletions).fault
                          else CommitRoot(rt.arena, rt.next, rt.wipRoot.value, rt.deletions).fault)
    ensures r.crashed.None? ==> r.currentRoot == rt.wipRoot && r.wipRoot.None?
    ensures r.crashed.Some? ==> r.currentRoot == rt.currentRoot && r.wipRoot == rt.wipRoot
  {
    var root := rt.wipRoot.value;
    var log := if build.Corrected? then CommitRootFixed(rt.arena, rt.next, root, rt.deletions)
               else CommitRoot(rt.arena, rt.next, root, rt.deletions);
    var issued := rt.(log := rt.log + log.ops);
    assert issued.log[..|rt.log|] == rt.log;
    assert LinkedAt(rt.arena, root);
    assert build.Corrected? && log.fault.None? ==> CommitShape(rt.arena, rt.next, root, rt.deletions, rt.log, issued.log) by {
      if build.Corrected? && log.fault.None? {
        CommitShapeAfter(rt.arena, rt.next, root, rt.deletions, rt.log);
      }
    }
    if log.fault.Some? then issued.(crashed := log.fault)
    else issued.(currentRoot := rt.wipRoot, wipRoot := None)
  }

  /** One call of workLoop(deadline): render until the deadline or the last unit, and
      commit once no unit is left. After a TypeError nothing runs any more, since the
      throw skips the re-registration at index.js:47. The current root changes only by
      a commit, which happens once no unit is left and makes the work in progress the
      current root; until then only off-screen host operations are issued, so a half
      rendered tree is never shown. */
  function WorkLoop(rt: Runtime, app: App, build: Build, budget: nat): (r: Runtime)
    requires Inv(rt)
    ensures Inv(r)
    ensures rt.crashed.Some? ==> r == rt
    ensures r.currentRoot != rt.currentRoot ==> r.nextUnit.None? && r.wipRoot.None? && r.currentRoot == rt.wipRoot
    ensures r.crashed.None? && r.wipRoot == rt.wipRoot ==> Grows(rt.log, r.log)
    ensures r.nextUnit.Some? ==> r.currentRoot == rt.currentRoot && r.wipRoot == rt.wipRoot
    ensures rt.crashed.None? && rt.wipRoot.Some? && r.crashed.None? && r.nextUnit.None? ==>
              r.currentRoot == rt.wipRoot && r.wipRoot.None?
    ensures rt.crashed.None? && rt.wipRoot.Some? && r.nextUnit.None? && Loop(rt, app, build, budget).crashed.None? ==>
              r == CommitRootStep(Loop(rt, app, build, budget), build)
    ensures rt.crashed.None? &&
            !(rt.wipRoot.Some? && Loop(rt, app, build, budget).crashed.None? && Loop(rt, app, build, budget).nextUnit.None?) ==>
              r == Loop(rt, app, build, budget)
    ensures rt.crashed.None? && Loop(rt, app, build, budget).crashed.Some? ==>
              r.crashed.Some? && r.currentRoot == rt.currentRoot && Grows(rt.log, r.log)
  {
    if rt.crashed.Some? then rt
    else
      var r := Loop(rt, app, build, budget);
      if r.crashed.None? && r.nextUnit.None? && r.wipRoot.Some? then CommitRootStep(r, build) else r
  }

  /** The same for whole calls of the work loop, commit included. */
  lemma WorkLoopSplit(rt: Runtime, app: App, build: Build, first: nat, second: nat)
    requires Inv(rt)
    ensures WorkLoop(WorkLoop(rt, app, build, first), app, build, second) == WorkLoop(rt, app, build, first + 1 + second)
  {
    LoopSplit(rt, app, build, first, second);
    if rt.crashed.None? {
      var r := Loop(rt, app, build, first);
      if r.crashed.None? && r.nextUnit.None? {
        assert Loop(r, app, build, second) == r;
      }
    }
  }
}

=== FILE: traversal.dfy ===
/** The choice of the next unit of work in performUnitOfWork (index.js:58-66): the
    child if there is one, otherwise the first sibling found on the way up. */
module Traversal {
  import opened Wrappers
  import opened Fibers

  /** The loop at index.js:60-66: the sibling of `id`, else that of its nearest
      ancestor that has one; None once the climb runs out of parents. */
  function Climb(arena: Arena, id: FiberId): (r: Option<FiberId>)
    requires Linked(arena) && id in arena
    ensures r.Some? ==> r.value in arena
    decreases id
  {
    assert LinkedAt(arena, id);
    match arena[id].sibling
    case Some(s) => Some(s)
    case None =>
      match arena[id].parent
      case None => None
      case Some(p) => Climb(arena, p)
  }

  /** The unit performUnitOfWork returns after working on `id`. */
  function NextUnit(arena: Arena, id: FiberId): (r: Option<FiberId>)
    requires Linked(arena) && id in arena
    ensures r.Some? ==> r.value in arena
  {
    assert LinkedAt(arena, id);
    if arena[id].child.Some? then arena[id].child else Climb(arena, id)
  }

  /** A tree of fiber ids, children in sibling order. */
  datatype Tree = Node(id: FiberId, kids: seq<Tree>)

  /** `t` is laid out in the arena under `up`, followed by the sibling `next`: each
      fiber's `child` is its first kid, its `sibling` the next kid of its parent and its
      `parent` the enclosing node. */
  ghost predicate Laid(arena: Arena, t: Tree, up: Option<FiberId>, next: Option<FiberId>)
    decreases t
  {
    && t.id in arena
    && arena[t.id].parent == up
    && arena[t.id].sibling == next
    && arena[t.id].child == (if t.kids == [] then None else Some(t.kids[0].id))
    && forall k {:trigger t.kids[k]} | 0 <= k < |t.kids| ::
         Laid(arena, t.kids[k], Some(t.id), if k + 1 < |t.kids| then Some(t.kids[k + 1].id) else None)
  }

  /** Kid `k` of a laid-out node is laid out under it, followed by the next kid. */
  lemma LaidKid(arena: Arena, t: Tree, up: Option<FiberId>, next: Option<FiberId>, k: nat)
    requires Laid(arena, t, up, next) && k < |t.kids|
    ensures Laid(arena, t.kids[k], Some(t.id), if k + 1 < |t.kids| then Some(t.kids[k + 1].id) else None)
  {
    var after := if k + 1 < |t.kids| then Some(t.kids[k + 1].id) else None;
    assert Laid(arena, t.kids[k], Some(t.id), after);
  }

  /** The fibers of `t` in pre-order: a node, then each of its subtrees in turn. */
  function PreOrder(t: Tree): (s: seq<FiberId>)
    ensures |s| > 0 && s[0] == t.id
    decreases t, 1
  {
    [t.id] + Forest(t.kids)
  }

  function Forest(ts: seq<Tree>): (s: seq<FiberId>)
    ensures ts != [] ==> |s| > 0 && s[0] == ts[0].id
    decreases ts, 0
  {
    if ts == [] then [] else PreOrder(ts[0]) + Forest(ts[1..])
  }

  /** Along `s` every fiber's next unit is the following fiber, and the last one's is `exit`. */
  ghost predicate Threaded(arena: Arena, s: seq<FiberId>, exit: Option<FiberId>)
    requires Linked(arena)
  {
    && (forall j | 0 <= j < |s| :: s[j] in arena)
    && (forall j | 0 <= j < |s| - 1 :: NextUnit(arena, s[j]) == Some(s[j + 1]))
    && (s != [] ==> NextUnit(arena, s[|s| - 1]) == exit)
  }

  /** Two threaded runs where the first exits into the start of the second form one run. */
  lemma ThreadedAppend(arena: Arena, a: seq<FiberId>, b: seq<FiberId>, exit: Option<FiberId>)
    requires Linked(arena) && a != [] && b != []
    requires Threaded(arena, a, Some(b[0])) && Threaded(arena, b, exit)
    ensures Threaded(arena, a + b, exit)
  {
    var s := a + b;
    forall j | 0 <= j < |s| - 1
      ensures NextUnit(arena, s[j]) == Some(s[j + 1])
    {
      if j < |a| - 1 {
        assert s[j] == a[j] && s[j + 1] == a[j + 1];
      } else if j == |a| - 1 {
        assert s[j] == a[|a| - 1] && s[j + 1] == b[0];
      } else {
        assert s[j] == b[j - |a|] && s[j + 1] == b[j - |a| + 1];
      }
    }
  }

  /** The work loop walks a laid-out tree in pre-order; after its last fiber it goes
      where the climb from the tree's root goes. */
  lemma {:induction false} PreOrderThreaded(arena: Arena, t: Tree, up: Option<FiberId>, next: Option<FiberId>)
    requires Linked(arena) && Laid(arena, t, up, next)
    ensures Threaded(arena, PreOrder(t), Climb(arena, t.id))
    decreases t, 1
  {
    if t.kids == [] {
      assert PreOrder(t) == [t.id];
    } else {
      ForestThreaded(arena, t, 0);
      assert Threaded(arena, [t.id], Some(t.kids[0].id));
      ThreadedAppend(arena, [t.id], Forest(t.kids), Climb(arena, t.id));
    }
  }

  /** The subtrees of `t` from index k on, walked one after another, end where the climb
      from `t` goes. */
  lemma {:induction false} ForestThreaded(arena: Arena, t: Tree, k: nat)
    requires Linked(arena) && t.id in arena && Laid(arena, t, arena[t.id].parent, arena[t.id].sibling)
    requires k < |t.kids|
    ensures Threaded(arena, Forest(t.kids[k..]), Climb(arena, t.id))
    decreases t, 0, |t.kids| - k
  {
    var kid := t.kids[k];
    var after := if k + 1 < |t.kids| then Some(t.kids[k + 1].id) else None;
    LaidKid(arena, t, arena[t.id].parent, arena[t.id].sibling, k);
    PreOrderThreaded(arena, kid, Some(t.id), after);
    assert t.kids[k..][0] == kid && t.kids[k..][1..] == t.kids[k + 1..];
    if k + 1 < |t.kids| {
      ForestThreaded(arena, t, k + 1);
      assert Climb(arena, kid.id) == Some(t.kids[k + 1].id);
      ThreadedAppend(arena, PreOrder(kid), Forest(t.kids[k + 1..]), Climb(arena, t.id));
    } else {
      assert t.kids[k + 1..] == [];
      assert Forest(t.kids[k..]) == PreOrder(kid) + [];
      assert LinkedAt(arena, kid.id);
      assert Climb(arena, kid.id) == Climb(arena, t.id);
    }
  }

  /** The units the work loop performs from `start`, at most `fuel` of them. */
  function Walk(arena: Arena, start: Option<FiberId>, fuel: nat): (s: seq<FiberId>)
    requires Linked(arena) && (start.Some? ==> start.value in arena)
    ensures |s| <= fuel
    decreases fuel
  {
    if fuel == 0 || start.None? then []
    else [start.value] + Walk(arena, NextUnit(arena, start.value), fuel - 1)
  }

  /** Walking a threaded run that exits to None yields exactly that run. */
  lemma {:induction false} WalkThreaded(arena: Arena, s: seq<FiberId>, fuel: nat)
    requires Linked(arena) && s != [] && Threaded(arena, s, None) && |s| <= fuel
    ensures Walk(arena, Some(s[0]), fuel) == s
    decreases |s|
  {
    if |s| > 1 {
      assert Threaded(arena, s[1..], None);
      WalkThreaded(arena, s[1..], fuel - 1);
    }
  }

  /** Rendered from a root with no parent and no sibling, the work loop performs the
      units of the tree in pre-order and then stops. */
  lemma RootWalk(arena: Arena, t: Tree, fuel: nat)
    requires Linked(arena) && Laid(arena, t, None, None)
    requires |PreOrder(t)| <= fuel
    ensures Walk(arena, Some(t.id), fuel) == PreOrder(t)
  {
    PreOrderThreaded(arena, t, None, None);
    WalkThreaded(arena, PreOrder(t), fuel);
  }
}

=== FILE: wrappers.dfy ===
/** The optional and fallible values shared by the whole model. */
module Wrappers {

  /** An optional value: the model's stand-in for JavaScript's null / undefined links. */
  datatype Option<+T> = None | Some(value: T)

  /** The result of an operation that may throw in the source. */
  datatype Result<+R, +E> = Success(value: R) | Failure(error: E)
}
